=== FILE: README.md ===
# callao — a Dafny model of the barcode splitter

callao takes a BAM file that the PacBio demultiplexing tool `lima` has already processed. Each
record carries a `bc` tag, an array of two 16-bit numbers that are the 0-based positions of the
two adapters seen at the read's ends. callao writes every record to the BAM file of the sample
index that its pair of adapters belongs to.

The Python front end reads the adapter names (`A_1`, `Q_1`, …) from a barcode FASTA file. It pairs
the two adapters of every sample index and builds a table from adapter-position pairs to output
paths. Optionally it adds the "artifact" pairs, where one adapter is seen at both ends. The Rust
splitter then does the following:
- opens the input;
- warns when the header has no `lima` program record;
- adds its own program record;
- opens one writer per distinct output path;
- routes every record by its `bc` tag;
- shuts the writers down at the end.

The older synchronous splitter in src/lib.rs routes records the same way with a tuple-keyed
table. It differs in these ways:
- it has no lima check;
- it adds no program record, so its files get the header as read;
- its writers get the header only, with no reference sequences;
- a path whose writer cannot be made is skipped;
- it never shuts its writers down.

The model is pure: every run is a function from its inputs to its outcome.
- A writer is the log of what it wrote (header, reference sequences, records, shutdown).
- The file system is a set of `Faults`: the paths that cannot be opened or written, and the
  input positions whose record write fails.
- The iteration order of a hash set is an explicit parameter (`openOrder`, `closeOrder`),
  constrained only to list every path once.
- The BAM reader is the header it yields, the records it reads, and whether the stream ends
  cleanly or with a read error.
- `make_reader` and `add_program_tag` are parameters: the reader as an `Option<Input>`, and the
  header edit as a function that may fail.

Modules:
- `Wrappers`: `Option` and `Result`.
- `Text`: the Python string operations the front end uses.
- `Cli`: the front end.
- `Records`: the `bc` field and the routing decision.
- `Writers`: `make_writer(s)` and the shutdown loop.
- `Router`: the record loop.
- `Pipeline`: the two splitters end to end.
- `Composition`: the front end's table fed to the splitter.
- `Scenarios`: small worked runs.

## Model

| member | source | states |
|---|---|---|
| Cli.CliCommand | pysrc/mdl/callao/__main__.py:62 | the recorded command line starts with `callao `, and is just that when no arguments follow |
| Cli.CliCommandArguments | pysrc/mdl/callao/__main__.py:62 | splitting the recorded command line after `callao ` gives back the arguments when none of them holds a space |
| Cli.CliCommandDropsQuoting | pysrc/mdl/callao/__main__.py:62 | no quoting is applied: one argument `a b` and two arguments `a`, `b` record the same line |
| Text.LeadingToken | pysrc/mdl/callao/__main__.py:70 | the result is the longest whitespace-free prefix of the line |
| Text.DropLeadingSpace | pysrc/mdl/callao/__main__.py:70 | `lstrip`: a suffix of the input; everything removed is whitespace; the result does not start with whitespace |
| Text.DropTrailingSpace | pysrc/mdl/callao/__main__.py:70 | `rstrip`: a prefix of the input; everything removed is whitespace; the result does not end with whitespace |
| Text.FirstWordOfStrippedLine | pysrc/mdl/callao/__main__.py:70 | for a line starting with `>`, `line.strip().split()[0]` exists and is the line's leading whitespace-free token |
| Text.StripCuts | pysrc/mdl/callao/__main__.py:70 | `strip()` returns a contiguous piece of the line that neither starts nor ends with whitespace, and everything cut off on either side is whitespace |
| Text.WordsAreWords | pysrc/mdl/callao/__main__.py:70 | every piece `split()` yields is non-empty and free of whitespace |
| Text.WordsNoneExactlyBlank | pysrc/mdl/callao/__main__.py:70 | `split()` yields nothing exactly when the line is all whitespace |
| Text.Split | pysrc/mdl/callao/__main__.py:70 | `split("_")` yields at least one piece, no piece holds the separator, and joining the pieces gives back the string |
| Text.SplitJoin | pysrc/mdl/callao/__main__.py:70 | splitting a join recovers the pieces when none holds the separator |
| Text.ParseInt | pysrc/mdl/callao/__main__.py:74 | `int()` succeeds exactly on an optionally signed, non-empty run of decimal digits; the sign decides the sign of the value |
| Text.ParseIntSigned | pysrc/mdl/callao/__main__.py:74 | `int()` of an optional `+` or `-` followed by digits is the digits' value, negated exactly for `-` |
| Text.ParseIntPadded | pysrc/mdl/callao/__main__.py:74 | leading zeros and a `+` do not change the value, and `-0…0` reads as 0: `int("01")` is 1, `int("+1")` is 1, `int("-0")` is 0 |
| Text.ParseIntOfPrinted | pysrc/mdl/callao/__main__.py:74 | every printed integer is read back by `int()` as itself |
| Cli.FirstPieces | pysrc/mdl/callao/__main__.py:70 | `name.split("_")[:2]` has one or two pieces, two exactly when the name holds `_` |
| Cli.FirstPiecesChars | pysrc/mdl/callao/__main__.py:70 | the pieces hold no `_`, and only characters of the name |
| Cli.FirstPiecesArePrefix | pysrc/mdl/callao/__main__.py:70 | `split("_")[:2]` returns the first two `_`-separated pieces in order: the whole name when it has no `_`; otherwise the name starts with the first piece, `_` and the second piece, followed by nothing or by the next `_` |
| Cli.FirstPiecesOfName | pysrc/mdl/callao/__main__.py:70 | a name made of an adapter, `_` and an index, neither holding `_`, splits back into that adapter and that index, in that order |
| Cli.NamePieces | pysrc/mdl/callao/__main__.py:70 | `line.strip().split()[0][1:].split("_")[:2]` has one or two pieces, two exactly when the name after `>` holds `_` |
| Cli.NamePiecesArePrefix | pysrc/mdl/callao/__main__.py:70 | the pieces of a `>` line are the first two `_`-separated pieces of the name after `>`, in order |
| Cli.NamePiecesOfStrippedLine | pysrc/mdl/callao/__main__.py:68-70 | the pieces of `line.strip().split()[0][1:]` for a `>` line are those of the line's leading whitespace-free token without the `>` |
| Cli.NamePiecesAreBare | pysrc/mdl/callao/__main__.py:70-74 | the pieces handed to `int()` hold neither `_` nor whitespace |
| Cli.HeaderLines | pysrc/mdl/callao/__main__.py:66-68 | at most one name per line, and only lines that start with `>` give one |
| Cli.HeaderLinesOne | pysrc/mdl/callao/__main__.py:67-68 | a single line is kept exactly when it starts with `>` |
| Cli.HeaderLineKept | pysrc/mdl/callao/__main__.py:67-70 | a `>` line stands in the list of names between the names of the lines before it and those of the lines after it |
| Cli.HeaderNames | pysrc/mdl/callao/__main__.py:66-70 | one name per `>` line, never more names than lines, each name of one or two pieces |
| Cli.HeaderNamesOne | pysrc/mdl/callao/__main__.py:67-70 | a single line gives its own name pieces when it starts with `>`, and no name otherwise |
| Cli.HeaderNamesAppend | pysrc/mdl/callao/__main__.py:67-70 | the names of two concatenated parts of the file are those of each part in turn, so each name comes from its own `>` line, in file order |
| Cli.HeaderLinesAppend | pysrc/mdl/callao/__main__.py:67-70 | the file is read line by line: the header lines of two concatenated parts are those of each part in turn |
| Cli.NonHeaderLineIgnored | pysrc/mdl/callao/__main__.py:68 | a line not starting with `>` contributes nothing, wherever it stands in the file |
| Cli.ToBarcodes | pysrc/mdl/callao/__main__.py:72-80 | the unpacking succeeds exactly when every name has two pieces and an integer index; then each barcode is (adapter, parsed index) in file order; otherwise the exit is the bad-names exit |
| Cli.Positions | pysrc/mdl/callao/__main__.py:83 | every adapter has a position; that position holds it; no later position holds it, so a repeated name keeps its last position |
| Cli.Members | pysrc/mdl/callao/__main__.py:86-88 | the adapters of an index all carry that index and come from the file; there are none exactly when the index does not occur |
| Cli.MembersComplete | pysrc/mdl/callao/__main__.py:86-88 | every adapter of the file carrying an index is among that index's adapters |
| Cli.MembersCount | pysrc/mdl/callao/__main__.py:86-88 | an index has as many adapters listed as there are file positions holding that index |
| Cli.Groups | pysrc/mdl/callao/__main__.py:86-88 | `ix_to_ij` has a key exactly for each index of the file, and none of its lists is empty |
| Cli.UnpairedByCount | pysrc/mdl/callao/__main__.py:90-92 | the pairing check fails exactly when some index of the file occurs at other than two positions |
| Cli.GroupsHoldMemberPositions | pysrc/mdl/callao/__main__.py:86-88 | `ix_to_ij` has one entry per index of the file, listing the positions of that index's adapters in file order |
| Cli.SortedPair | pysrc/mdl/callao/__main__.py:95 | `tuple(sorted(v))` is ascending and a permutation of the two positions |
| Cli.IncludeSet | pysrc/mdl/callao/__main__.py:97-99 | the included indexes are the file's, cut down to the requested ones exactly when some are requested |
| Cli.GroupsArePairing | pysrc/mdl/callao/__main__.py:90-92 | once every index has two entries, both are positions of adapters of that index |
| Cli.PairsDistinct | pysrc/mdl/callao/__main__.py:95-106 | two indexes never share a sorted pair, so the comprehension of `bc_mapping` loses no index |
| Cli.BasePairs | pysrc/mdl/callao/__main__.py:103-106 | every included index's sorted pair is a key sent to that index's output, and every key is the sorted pair of some included index |
| Cli.ArtifactPairs | pysrc/mdl/callao/__main__.py:109-112 | `(i, i)` is a key exactly for the positions `i` of adapters of included indexes, sent to the output of the adapter's index |
| Cli.ArtifactOverlap | pysrc/mdl/callao/__main__.py:106-112 | an artifact pair `(i, i)` writes over an included index's sorted pair exactly when that index's two adapter positions coincide, and where keys overlap it writes the output already there |
| Cli.MappingEntries | pysrc/mdl/callao/__main__.py:103-112 | every table key is an ascending pair of positions of one included index, sent to that index's output |
| Cli.MappingReachesIncluded | pysrc/mdl/callao/__main__.py:106-112 | every included index's sorted pair is in the table and sent to its own output, artifact entries notwithstanding |
| Cli.MappingArtifacts | pysrc/mdl/callao/__main__.py:109-112 | with artifacts, every adapter position `i` of an included index sends `(i, i)` to its index's output |
| Cli.MappingOnePairPerOutput | pysrc/mdl/callao/__main__.py:103-106 | without artifacts, each output is reached from exactly one pair |
| Cli.MappingOutputs | pysrc/mdl/callao/__main__.py:103-112 | the table's outputs are exactly one per included index |
| Cli.BuildMapping | pysrc/mdl/callao/__main__.py:62-112 | the front end exits with the bad-names exit exactly when the names cannot be unpacked into adapter and integer index |
| Cli.BuildMappingBadNames | pysrc/mdl/callao/__main__.py:72-80 | the front end exits with the bad-names exit exactly when some name lacks a `_` or has a non-integer index |
| Cli.BuildMappingUnpaired | pysrc/mdl/callao/__main__.py:86-92 | the front end exits with the pairing exit exactly when the names parse but some index has other than two adapters |
| Cli.BuildMappingSound | pysrc/mdl/callao/__main__.py:94-112 | a table built by the front end has ascending same-index keys of included indexes only, each sent to its index's output; its outputs are one per included index; artifact pairs are present when asked for; otherwise one pair per output |
| Cli.RepeatedAdapterPassesPairing | pysrc/mdl/callao/__main__.py:83-95 | a file listing one adapter twice passes the two-per-index check, and that index's pair is the last position twice |
| Records.Decoded | src/callao.rs:43 | `filter_map(ok)` keeps exactly the elements that decoded, and never adds one |
| Records.DecodedOne | src/callao.rs:43 | one decoded element is kept as its value, one failed element is dropped |
| Records.DecodedAppend | src/callao.rs:43 | the filter works element by element: filtering two concatenated arrays gives the two filtered arrays concatenated |
| Records.DecodedAllDecoded | src/callao.rs:43 | an array whose elements all decode passes through unchanged |
| Records.DecodedDropsFailures | src/callao.rs:43 | removing the failed elements first changes nothing |
| Records.Decide | src/callao.rs:42-53 | a record is routed exactly when its `bc` field is a 16-bit array of two decoded elements that is a table key, and then to that key's path; the odd-length debug message is issued exactly for 16-bit arrays of another decoded length, with that length |
| Records.DecideSkipsFailedElements | src/callao.rs:43-44 | failed elements are dropped before the length check: the decision equals that for the array of decoded elements only |
| Records.DecideFailedElementExamples | src/callao.rs:43-47 | `[a, failed, b]` is routed as `[a, b]`, and `[a, failed]` is dropped as length one |
| Records.DecideUsesStoredOrder | src/callao.rs:47 | the pair is looked up as stored: the reversed pair is dropped when only `[a, b]` is a key |
| Records.LegacyDecide | src/lib.rs:69-79 | the legacy decision routes exactly a two-element 16-bit array whose tuple is a key, to that key's path, and reports every other length |
| Records.AsVectorTable | src/lib.rs:73-74 | the tuple-keyed table as a vector-keyed one: the same pairs with the same paths, every key of length two |
| Records.LegacyDecideAgrees | src/lib.rs:69-79 | on records whose elements all decode, the legacy and the asynchronous decisions agree |
| Writers.MakeWriter | src/io.rs:10-23 | a writer is made exactly when opening, the header write and the reference-sequence write all succeed; its file then holds the header and the reference sequences; otherwise the error is that of the step that failed |
| Writers.FirstUnopenable | src/io.rs:32-33 | the first path in iteration order whose writer cannot be made |
| Writers.OpenEach | src/io.rs:32-35 | the loop keeps the writers it was given and adds only paths of the set; an error comes from opening, the header write or the reference-sequence write of a path of the set whose writer cannot be made |
| Writers.OpenEachWriters | src/io.rs:32-35 | the loop keeps the writers it was given and adds exactly the paths before the first that cannot be opened, each with header and reference sequences |
| Writers.OpenEachError | src/io.rs:33 | the `?` on `make_writer`: the loop fails with the error of the first path that cannot be opened, and only then |
| Writers.OpenEachPool | src/io.rs:32-35 | the loop keeps the writers made before the first failure, each with header and reference sequences, and reports exactly that failure's error |
| Writers.MakeWriters | src/io.rs:26-38 | success exactly when every path's writer can be made; then one writer per path of the set; otherwise the error of the first failing path in iteration order |
| Writers.LegacyMakeWriter | src/lib.rs:16-25 | a legacy writer is made exactly when opening and the header write succeed, and then holds the header only |
| Writers.LegacyOpenEach | src/lib.rs:34-38 | the legacy loop adds a writer exactly for the paths whose writer could be made, and leaves the rest untouched |
| Writers.LegacyMakeWriters | src/lib.rs:28-41 | the legacy `make_writers` always succeeds, holding a writer exactly for the paths whose writer could be made, each with the header written |
| Writers.FirstFailedShutdown | src/callao.rs:56-57 | the first writer in iteration order whose shutdown fails |
| Writers.ShutdownEach | src/callao.rs:56-58 | writers are shut down in order up to the first failing shutdown, which is the error; the others are untouched and no writer is added or removed |
| Router.Route | src/callao.rs:41-54 | the record loop never adds or removes a writer |
| Router.FirstWriteFailure | src/callao.rs:47-49 | the first record, in input order, that goes to a writer whose write fails |
| Router.WrittenShape | src/callao.rs:49 | writing records logs exactly one record event per record, in order |
| Router.RouteFiles | src/callao.rs:41-54 | up to the first failing write, every writer gains exactly the records sent to its path, in input order |
| Router.RouteOddLengths | src/callao.rs:44-45 | the debug messages report the lengths of the odd arrays met before the first failing write, in input order |
| Router.RouteError | src/callao.rs:49 | the loop succeeds exactly when no write fails, and otherwise reports the path and the position of the first failing write |
| Router.RouteStopsAtFailure | src/callao.rs:49 | from the first record on, the first failing write is the loop's error, naming its path and position |
| Router.RouteRunsThrough | src/callao.rs:41-54 | from the first record on, a loop in which no write fails ends without an error |
| Router.RoutedIndices | src/callao.rs:41-49 | the positions of the records sent to a path: ascending, and exactly those records |
| Router.DeliveredIsSelection | src/callao.rs:41-49 | order preservation: a path receives the subsequence of the input at the positions routed to it |
| Router.DeliveredOnlySent | src/callao.rs:47-49 | everything a path receives was sent to that path |
| Router.DeliveredDisjoint | src/callao.rs:47-49 | no record reaches two paths |
| Router.SentOnce | src/callao.rs:47-48 | a record is sent to at most one of a list of distinct paths |
| Router.DeliveredPartition | src/callao.rs:41-54 | across distinct paths, the records received add up to the records routed to one of them: none is written twice |
| Pipeline.AsyncSplitBam | src/callao.rs:13-62 | the warning is issued exactly when the header lacks `lima`; a failed reader or header edit ends the run with that error and no files; a successful run has one file per distinct output path |
| Pipeline.ReadAndClose | src/callao.rs:41-58 | the loop and the shutdowns neither add nor remove a file, and leave the warning as it was |
| Pipeline.ReadAndCloseFiles | src/callao.rs:41-58 | each file gains exactly its routed records up to the first failing write, and a shutdown exactly when the run got to shut it down |
| Pipeline.ReadAndCloseOutcome | src/callao.rs:41-61 | the run ends at the first failing write or at a read error; otherwise it fails exactly at the first failing shutdown |
| Pipeline.AsyncOpenFailure | src/callao.rs:36 | a writer that cannot be made ends the run with its error; the paths before it in iteration order, and only those, had a writer made with header and reference sequences written, each then dropped without shutdown; no record is read |
| Pipeline.AsyncAfterOpening | src/callao.rs:36-61 | once every writer is made, each file holds the edited header, the reference sequences, its routed records up to the first failing write, and a shutdown when the run got that far; the error is the first failing write, the read error or the first failing shutdown |
| Pipeline.AsyncSuccess | src/callao.rs:13-62 | the run succeeds exactly when reader, header edit, every writer, every record write, the stream and every shutdown succeed; then each file holds header, reference sequences, exactly its routed records in input order, and one shutdown |
| Pipeline.AsyncSuccessOpened | src/callao.rs:41-61 | once every writer is made, the run succeeds exactly when no record write fails, the stream ends cleanly and no shutdown fails |
| Pipeline.AsyncSuccessFiles | src/callao.rs:41-58 | a run that succeeds leaves every file with header, reference sequences, all its routed records in input order and one shutdown |
| Pipeline.OpenedThenWritten | src/io.rs:17-20 | a file written as the splitter writes it has the header, then the reference sequences, then records, and at most a final shutdown |
| Pipeline.AsyncHeaderFirst | src/callao.rs:31-49 | whatever the outcome, every file that exists starts with the edited header written once, followed only by the reference sequences, records and a final shutdown |
| Pipeline.LimaOnlyWarns | src/callao.rs:26-28 | the run depends on the input header only through its edited form: two headers edited alike give the same files, debug messages and outcome, and the lima check decides only the warning |
| Pipeline.LegacySplitBam | src/lib.rs:51-85 | the legacy splitter never warns, and a failed open or header read ends the run with no files |
| Pipeline.LegacyRead | src/lib.rs:65-84 | the legacy record loop neither adds nor removes a file, and never warns |
| Pipeline.LegacyReadFiles | src/lib.rs:65-84 | each legacy file gains exactly its routed records, in input order, up to the first failing write |
| Pipeline.LegacyReadResult | src/lib.rs:65-84 | the legacy loop fails at the first failing write, else exactly on a read error; its debug messages are those of the records looked at |
| Pipeline.LegacyOutcome | src/lib.rs:51-85 | writers exist exactly for the paths whose writer could be made, holding the header as read and their routed records up to the first failing write, never shut down; the run fails only on a record write or a read error |
| Composition.AsRouterTable | src/callao.rs:16 | the front end's pair table as the splitter's vector table: the same pairs with the same paths |
| Composition.BuildMappingKeyed | pysrc/mdl/callao/__main__.py:103-112 | every key of the built table is an ascending pair of adapter positions of one index, sent to that index's output |
| Composition.DescendingPairNeverRouted | src/callao.rs:47 | since the front end sorts every pair and the splitter never does, a record whose decoded pair is descending is dropped |
| Composition.RoutedByKey | src/callao.rs:47-49 | under such a table, a record whose decoded pair is a key goes to the output of the one index both its adapters belong to |
| Composition.OutputHoldsItsIndex | src/callao.rs:41-54 | end to end, an index's file receives only records whose decoded pair is an ascending pair of that index's adapters |
| Scenarios.FanOut | src/callao.rs:41-54 | records with two different keys go to their two files, each in input order |
| Scenarios.Collapse | src/callao.rs:47-49 | two keys sent to one path interleave in that path's file in input order |
| Scenarios.DropsUnknownPair | src/callao.rs:47 | a pair that is not a key is dropped, and no message is logged for it |
| Scenarios.DropsOddLength | src/callao.rs:43-45 | a three-element array is dropped, and its length is the one debug message |
| Scenarios.DropsMissingTag | src/callao.rs:42 | a record without the tag is dropped, and no message is logged for it |
| Scenarios.EmptyInput | src/callao.rs:13-62 | an empty input yields, per path, a file with the edited header, the reference sequences and a shutdown |

## Left out

- The BAM and BGZF codecs, the SAM header structure and `noodles` itself. A record is an
  opaque value with a `bc` field. A header is its set of program IDs plus an opaque rest.
- `make_reader` (src/io.rs) and `add_program_tag` are parameters: the reader as an
  `Option<Input>`, the header edit as a function that may fail. Their bodies are not part of
  this model.
- The tokio runtime, `async`/`await` and `#[tokio::main]`. The model is sequential, as the code
  awaits every step in turn.
- The pyo3 bindings and the conversion of Python ints to `u16`.
  `Composition.AsRouterTable` requires every position to fit in 16 bits instead of modelling
  the conversion error.
- The open mode (`write` plus `create`, with no truncation), the file contents beyond the
  logged events, and the way a failed write leaves a partial record. A failed write leaves the
  log unchanged.
- The files on disk. A `Run`'s files record, per path, the writes issued to that path's writer,
  including a writer that an error later drops. `make_writer` creates the
  file before the header or reference-sequence write can fail (src/io.rs:14, src/io.rs:17-20;
  src/lib.rs:20, src/lib.rs:22), so a path whose writer fails can still leave an empty file
  behind. `Pipeline.AsyncOpenFailure` and `Pipeline.LegacyOutcome` speak of writers, not of
  files on disk.
- Writers.MakeWriter: the code propagates the bare `io::Error` through `?`. The path and the
  step held by `Writers.Error`, and the path and position held by a failing record write, are
  bookkeeping of the model, not values the program reports.
- Hash iteration order is an explicit parameter. Contracts quantify over every order that
  lists each path once.
- The click option parsing, logging setup and every `info`/`debug` message other than the
  missing-lima warning and the odd-length debug message. Those two are recorded in
  `Run.limaWarning` and `Run.oddLengths`. The FASTA file is read as a list of lines.
- `output_stem.with_suffix(f".{ix}.bam")` becomes `Cli.OutputBam(stem, ix)`: one distinct path
  per index. Path syntax is not modelled.
- Text.ParseInt: Python's `int()` also accepts non-ASCII digits, surrounding whitespace and `_`
  between digits. Only ASCII digits with an optional sign are modelled. `Cli.NamePiecesAreBare`
  shows that whitespace and `_` cannot reach `int()` here.
- Text.ParseInt, Text.ParseIntSigned, Text.ParseIntPadded, Text.ParseIntOfPrinted: the limit on
  the length of integer strings is not modelled. Python 3.11 and later, and the 2022 security
  releases of 3.7 to 3.10, make `int()` raise `ValueError` on a decimal literal of more than 4300
  digits, leading zeros included. The front end would catch that error and exit with the
  bad-names exit (pysrc/mdl/callao/__main__.py:75-80). The model reads such a literal as its
  value, so these members' promises hold only for literals within the limit.
- The `sys.exit(1)` calls become the `Cli.CliExit` values. The call to `split_bam` with the built
  table is modelled by `Composition`.

## Error paths and edge cases of the code

- On every error path the writers are dropped without `shutdown`: the `?` after `make_writers`
  (src/io.rs:33, src/callao.rs:36), after a record write (src/callao.rs:49), after a read
  (src/callao.rs:41) and after a shutdown (src/callao.rs:57). `Pipeline.AsyncOpenFailure` and
  `Pipeline.AsyncAfterOpening` state this.
- When a writer cannot be made, the writers made before it in iteration order had the header
  and reference sequences written. The `?` at src/io.rs:33 then drops the local `output_writers`
  map (src/io.rs:30), so they are dropped without shutdown (`Pipeline.AsyncOpenFailure`).
  `Run.files` records the writes issued, not what reached the disk.
- Outputs are opened with `write(true).create(true)`, without truncation (src/io.rs:14). This is
  left out, as above.
- Only a wrong-length array is logged (src/callao.rs:44-45). A missing tag, a tag of another
  type or an undecodable field is dropped silently (src/callao.rs:42; `Records.Decide`,
  `Scenarios.DropsMissingTag`).
- Array elements that fail to decode are removed before the length check (src/callao.rs:43-44),
  so a damaged three-element array can be routed (`Records.DecideFailedElementExamples`).
- The legacy `make_writers` skips a path whose writer cannot be made and carries on
  (src/lib.rs:34-38); the run then drops that path's records (src/lib.rs:75-77).

=== FILE: cli.dfy ===
/** The command-line front end: it reads the adapter names of a FASTA file, pairs the two
    adapters of every sample index, and builds the table that sends each barcode pair to
    that index's output BAM. */
module Cli {
  import opened Wrappers
  import opened Text

  /** The command line recorded in the output headers: `callao` followed by the process
      arguments after the program name, joined by single spaces. */
  function CliCommand(argv: seq<string>): (cmd: string)
    ensures |cmd| >= 7 && cmd[..7] == "callao "
    ensures |argv| <= 1 ==> cmd == "callao "
  {
    "callao " + Join(if |argv| == 0 then [] else argv[1..], ' ')
  }

  /** The recorded command line gives back the arguments when none of them holds a space. */
  lemma CliCommandArguments(argv: seq<string>)
    requires |argv| >= 2
    requires forall k :: 1 <= k < |argv| ==> ' ' !in argv[k]
    ensures Split(CliCommand(argv)[7..], ' ') == argv[1..]
  {
    assert CliCommand(argv)[7..] == Join(argv[1..], ' ');
    SplitJoin(argv[1..], ' ');
  }

  /** No quoting is applied, so an argument holding a space reads as two. */
  lemma CliCommandDropsQuoting()
    ensures CliCommand(["callao", "a b"]) == CliCommand(["callao", "a", "b"])
  {
    assert ["callao", "a", "b"][1..] == ["a", "b"];
    assert Join(["a", "b"], ' ') == "a" + [' '] + "b";
  }

  /** One adapter of the FASTA file: its name and the sample index written after `_`. */
  datatype Barcode = Barcode(adapter: string, index: int)

  /** The two ways the front end gives up; both log an error and exit with status 1. */
  datatype CliExit = BadIndexNames | UnpairedIndex

  /** The stand-in for `output_stem.with_suffix(f".{ix}.bam")`: one path per index. */
  datatype OutputBam = OutputBam(stem: string, index: int)

  predicate IsHeaderLine(line: string) {
    |line| > 0 && line[0] == '>'
  }

  /** `name.split("_")[:2]`: the adapter piece and, when the name holds a `_`, the index piece. */
  function FirstPieces(name: string): (pieces: seq<string>)
    ensures 1 <= |pieces| <= 2
    ensures |pieces| == 2 <==> '_' in name
  {
    var parts := Split(name, '_');
    SplitCount(name, '_');
    parts[..if |parts| < 2 then |parts| else 2]
  }

  /** The pieces hold no `_`, and only characters of the name. */
  lemma FirstPiecesChars(name: string)
    ensures forall k, i :: 0 <= k < |FirstPieces(name)| && 0 <= i < |FirstPieces(name)[k]| ==>
              FirstPieces(name)[k][i] != '_' && FirstPieces(name)[k][i] in name
  {
    SplitChars(name, '_');
  }

  /** `pieces` are the leading `_`-separated pieces of `name`: the whole name when it is one
      piece; otherwise the name starts with the first piece, `_` and the second piece, and what
      follows them is empty or starts with the next `_`. */
  ghost predicate LeadingPiecesOf(name: string, pieces: seq<string>) {
    && (|pieces| == 1 ==> pieces[0] == name)
    && (|pieces| == 2 ==>
          exists rest: string :: name == pieces[0] + ['_'] + pieces[1] + rest && (rest == [] || rest[0] == '_'))
  }

  /** `split("_")[:2]` returns the first two pieces, in order. */
  lemma FirstPiecesArePrefix(name: string)
    ensures LeadingPiecesOf(name, FirstPieces(name))
  {
    var parts := Split(name, '_');
    var p := FirstPieces(name);
    if |parts| >= 2 {
      var tail := parts[1..];
      var rest: string := if |tail| == 1 then [] else ['_'] + Join(tail[1..], '_');
      assert Join(tail, '_') == parts[1] + rest;
      assert name == p[0] + ['_'] + p[1] + rest;
    }
  }

  /** A name made of an adapter, `_` and an index, neither holding `_`, gives back the adapter
      and the index, in that order. */
  lemma FirstPiecesOfName(adapter: string, index: string)
    requires '_' !in adapter && '_' !in index
    ensures FirstPieces(adapter + ['_'] + index) == [adapter, index]
  {
    SplitOfPrefixedPiece(adapter, '_', index);
    SplitOfPiece(index, '_');
  }

  /** The name pieces of a header line: the pieces of its leading whitespace-free token
      without the `>`. */
  function NamePieces(line: string): (pieces: seq<string>)
    requires IsHeaderLine(line)
    ensures 1 <= |pieces| <= 2
    ensures |pieces| == 2 <==> '_' in LeadingToken(line)[1..]
  {
    FirstPieces(LeadingToken(line)[1..])
  }

  /** The pieces of a header line are the first two `_`-separated pieces of the name after `>`,
      in order. */
  lemma NamePiecesArePrefix(line: string)
    requires IsHeaderLine(line)
    ensures LeadingPiecesOf(LeadingToken(line)[1..], NamePieces(line))
  {
    FirstPiecesArePrefix(LeadingToken(line)[1..]);
  }

  /** The name is the first whitespace-separated word of the stripped line, so the pieces are
      those of `line.strip().split()[0][1:]`. */
  lemma NamePiecesOfStrippedLine(line: string)
    requires IsHeaderLine(line)
    ensures Words(Strip(line)) != []
    ensures NamePieces(line) == FirstPieces(Words(Strip(line))[0][1..])
  {
    FirstWordOfStrippedLine(line);
  }

  /** The pieces hold neither `_` nor whitespace, so `int()` sees them as they are. */
  lemma NamePiecesAreBare(line: string)
    requires IsHeaderLine(line)
    ensures forall k, i :: 0 <= k < |NamePieces(line)| && 0 <= i < |NamePieces(line)[k]| ==>
              NamePieces(line)[k][i] != '_' && !IsSpace(NamePieces(line)[k][i])
  {
    var token := LeadingToken(line);
    FirstPiecesChars(token[1..]);
    assert forall c :: c in token[1..] ==> !IsSpace(c);
  }

  /** A string with the separator splits into at least two pieces, one without into one. */
  lemma SplitCount(s: string, sep: char)
    ensures |Split(s, sep)| >= 2 <==> sep in s
  {
    var parts := Split(s, sep);
    if |parts| >= 2 {
      assert Join(parts, sep) == parts[0] + [sep] + Join(parts[1..], sep);
      assert s[|parts[0]|] == sep;
    } else {
      assert s == parts[0];
    }
  }

  lemma {:induction false} SplitChars(s: string, sep: char)
    ensures forall k, i :: 0 <= k < |Split(s, sep)| && 0 <= i < |Split(s, sep)[k]| ==>
              Split(s, sep)[k][i] in s
    decreases |s|
  {
    if s != [] {
      SplitChars(s[1..], sep);
    }
  }

  /** The lines that start with `>`, in file order; every other line is ignored. */
  function HeaderLines(lines: seq<string>): (hs: seq<string>)
    ensures |hs| <= |lines|
    ensures forall k :: 0 <= k < |hs| ==> IsHeaderLine(hs[k])
  {
    if lines == [] then []
    else (if IsHeaderLine(lines[0]) then [lines[0]] else []) + HeaderLines(lines[1..])
  }

  /** The names of the header lines, in file order: one per header line, each of one or two
      pieces. */
  function HeaderNames(lines: seq<string>): (names: seq<seq<string>>)
    ensures |names| == |HeaderLines(lines)| <= |lines|
    ensures forall k :: 0 <= k < |names| ==> 1 <= |names[k]| <= 2
  {
    var hs := HeaderLines(lines);
    seq(|hs|, k requires 0 <= k < |hs| => NamePieces(hs[k]))
  }

  lemma {:induction false} HeaderLinesAppend(a: seq<string>, b: seq<string>)
    ensures HeaderLines(a + b) == HeaderLines(a) + HeaderLines(b)
    decreases |a|
  {
    if a != [] {
      assert (a + b)[0] == a[0];
      assert (a + b)[1..] == a[1..] + b;
      HeaderLinesAppend(a[1..], b);
    } else {
      assert a + b == b;
    }
  }

  /** A line that does not start with `>` contributes no name, wherever it stands. */
  lemma NonHeaderLineIgnored(a: seq<string>, line: string, b: seq<string>)
    requires !IsHeaderLine(line)
    ensures HeaderLines(a + [line] + b) == HeaderLines(a + b)
  {
    HeaderLinesAppend(a + [line], b);
    HeaderLinesAppend(a, [line]);
    HeaderLinesAppend(a, b);
    assert HeaderLines([line]) == [] by {
      assert [line][1..] == [];
    }
    assert HeaderLines(a + [line]) == HeaderLines(a);
  }

  /** A single line gives itself when it starts with `>`, and nothing otherwise. */
  lemma HeaderLinesOne(line: string)
    ensures HeaderLines([line]) == if IsHeaderLine(line) then [line] else []
  {
    assert [line][1..] == [];
  }

  /** A sequence is the part before position k, the element at k and the part after it. */
  lemma SplitAround<T>(s: seq<T>, k: nat)
    requires k < |s|
    ensures s == s[..k] + ([s[k]] + s[k + 1..])
  {
    assert s[k..] == [s[k]] + s[k + 1..];
  }

  /** A single line gives its own name when it starts with `>`, and no name otherwise. */
  lemma HeaderNamesOne(line: string)
    ensures HeaderNames([line]) == if IsHeaderLine(line) then [NamePieces(line)] else []
  {
    HeaderLinesOne(line);
  }

  /** The names of two concatenated parts of the file are those of each part in turn, so the
      k-th name comes from the k-th header line. */
  lemma HeaderNamesAppend(a: seq<string>, b: seq<string>)
    ensures HeaderNames(a + b) == HeaderNames(a) + HeaderNames(b)
  {
    HeaderLinesAppend(a, b);
    var n, na, nb := HeaderNames(a + b), HeaderNames(a), HeaderNames(b);
    assert |n| == |na| + |nb|;
    forall k | 0 <= k < |n|
      ensures n[k] == (na + nb)[k]
    {
      if k < |na| {
        assert HeaderLines(a + b)[k] == HeaderLines(a)[k];
      } else {
        assert HeaderLines(a + b)[k] == HeaderLines(b)[k - |na|];
      }
    }
  }

  /** A line that starts with `>` gives its own name between those of its neighbours. */
  lemma HeaderLineAround(before: seq<string>, line: string, after: seq<string>)
    requires IsHeaderLine(line)
    ensures HeaderLines(before + ([line] + after)) == HeaderLines(before) + [line] + HeaderLines(after)
  {
    calc {
      HeaderLines(before + ([line] + after));
    == { HeaderLinesAppend(before, [line] + after); }
      HeaderLines(before) + HeaderLines([line] + after);
    == { HeaderLinesAppend([line], after); HeaderLinesOne(line); }
      HeaderLines(before) + ([line] + HeaderLines(after));
    }
  }

  /** Every line that starts with `>` is kept, at its place among the other header lines. */
  lemma HeaderLineKept(lines: seq<string>, k: nat)
    requires k < |lines| && IsHeaderLine(lines[k])
    ensures HeaderLines(lines) == HeaderLines(lines[..k]) + [lines[k]] + HeaderLines(lines[k + 1..])
  {
    SplitAround(lines, k);
    HeaderLineAround(lines[..k], lines[k], lines[k + 1..]);
  }

  predicate IsBarcodeName(pieces: seq<string>) {
    |pieces| == 2 && IsIntLiteral(pieces[1])
  }

  /** Unpacks every name into (adapter, index); a name without `_` or whose index is not an
      integer stops the run. */
  function ToBarcodes(names: seq<seq<string>>): (r: Result<seq<Barcode>, CliExit>)
    ensures r.Success? <==> forall k :: 0 <= k < |names| ==> IsBarcodeName(names[k])
    ensures r.Failure? ==> r.error == BadIndexNames
    ensures r.Success? ==> |r.value| == |names|
    ensures r.Success? ==> forall k :: 0 <= k < |names| ==>
              r.value[k] == Barcode(names[k][0], ParseInt(names[k][1]).value)
  {
    if names == [] then Success([])
    else if |names[0]| != 2 then Failure(BadIndexNames)
    else match ParseInt(names[0][1])
      case None => Failure(BadIndexNames)
      case Some(ix) =>
        match ToBarcodes(names[1..])
        case Failure(e) => Failure(e)
        case Success(rest) =>
          var r := [Barcode(names[0][0], ix)] + rest;
          assert forall k :: 1 <= k < |names| ==> r[k] == rest[k - 1];
          Success(r)
  }

  function ParseBarcodes(lines: seq<string>): Result<seq<Barcode>, CliExit> {
    ToBarcodes(HeaderNames(lines))
  }

  /** The last position of `b` in `bcs`. */
  function LastPosition(bcs: seq<Barcode>, b: Barcode): (i: nat)
    requires b in bcs
    ensures i < |bcs| && bcs[i] == b
    ensures forall j :: i < j < |bcs| ==> bcs[j] != b
  {
    var last := |bcs| - 1;
    if bcs[last] == b then last
    else
      assert b in bcs[..last] by {
        var j :| 0 <= j < |bcs| && bcs[j] == b;
        assert bcs[..last][j] == b;
      }
      var i := LastPosition(bcs[..last], b);
      assert bcs[i] == bcs[..last][i];
      assert forall j :: i < j < last ==> bcs[j] == bcs[..last][j];
      i
  }

  /** `bc_to_i`: every adapter's 0-based position in the file. A name that occurs twice keeps
      its last position, as a dictionary comprehension overwrites earlier entries. */
  function Positions(bcs: seq<Barcode>): (pos: map<Barcode, nat>)
    ensures forall b :: b in bcs ==> b in pos
    ensures forall b :: b in pos ==> pos[b] < |bcs| && bcs[pos[b]] == b
    ensures forall b, j :: b in pos && pos[b] < j < |bcs| ==> bcs[j] != b
  {
    map b | b in bcs :: LastPosition(bcs, b)
  }

  function IndexSet(bcs: seq<Barcode>): set<int> {
    set i | 0 <= i < |bcs| :: bcs[i].index
  }

  lemma IndexSetSnoc(bcs: seq<Barcode>)
    requires bcs != []
    ensures IndexSet(bcs) == IndexSet(bcs[..|bcs| - 1]) + {bcs[|bcs| - 1].index}
  {
    var init := bcs[..|bcs| - 1];
    forall x | x in IndexSet(bcs)
      ensures x in IndexSet(init) + {bcs[|bcs| - 1].index}
    {
      var i :| 0 <= i < |bcs| && bcs[i].index == x;
      if i < |init| {
        assert init[i] == bcs[i];
      }
    }
    forall x | x in IndexSet(init)
      ensures x in IndexSet(bcs)
    {
      var i :| 0 <= i < |init| && init[i].index == x;
      assert bcs[i] == init[i];
    }
  }

  /** The adapters carrying sample index `ix`, in file order. */
  function Members(bcs: seq<Barcode>, ix: int): (ms: seq<Barcode>)
    ensures forall k :: 0 <= k < |ms| ==> ms[k].index == ix && ms[k] in bcs
    ensures ms == [] <==> ix !in IndexSet(bcs)
  {
    if bcs == [] then []
    else
      var init := bcs[..|bcs| - 1];
      IndexSetSnoc(bcs);
      Members(init, ix) + (if bcs[|bcs| - 1].index == ix then [bcs[|bcs| - 1]] else [])
  }

  /** The positions in the file of the adapters that carry index `ix`. */
  ghost function IndexPositions(bcs: seq<Barcode>, ix: int): set<nat> {
    set i: nat | i < |bcs| && bcs[i].index == ix
  }

  /** `Members` misses no adapter of the index. */
  lemma {:induction false} MembersComplete(bcs: seq<Barcode>, ix: int)
    ensures forall i :: 0 <= i < |bcs| && bcs[i].index == ix ==> bcs[i] in Members(bcs, ix)
    decreases |bcs|
  {
    if bcs != [] {
      var init := bcs[..|bcs| - 1];
      var b := bcs[|bcs| - 1];
      var before := Members(init, ix);
      var tail := if b.index == ix then [b] else [];
      assert Members(bcs, ix) == before + tail;
      forall i | 0 <= i < |bcs| && bcs[i].index == ix
        ensures bcs[i] in before + tail
      {
        if i < |init| {
          MembersComplete(init, ix);
          assert bcs[i] == init[i];
          assert init[i] in before;
        } else {
          assert bcs[i] in tail;
        }
      }
    }
  }

  lemma IndexPositionsSnoc(bcs: seq<Barcode>, ix: int)
    requires bcs != []
    ensures var init := bcs[..|bcs| - 1];
      && |init| !in IndexPositions(init, ix)
      && IndexPositions(bcs, ix)
         == IndexPositions(init, ix) + (if bcs[|bcs| - 1].index == ix then {|init|} else {})
  {
    var init := bcs[..|bcs| - 1];
    forall i: nat | i in IndexPositions(bcs, ix) && i < |init|
      ensures i in IndexPositions(init, ix)
    {
      assert init[i] == bcs[i];
    }
    forall i: nat | i in IndexPositions(init, ix)
      ensures i in IndexPositions(bcs, ix)
    {
      assert init[i] == bcs[i];
    }
  }

  /** `Members` lists one entry per position that carries the index, so its length is what
      the two-per-index check counts. */
  lemma {:induction false} MembersCount(bcs: seq<Barcode>, ix: int)
    ensures |Members(bcs, ix)| == |IndexPositions(bcs, ix)|
    decreases |bcs|
  {
    if bcs != [] {
      var init := bcs[..|bcs| - 1];
      var b := bcs[|bcs| - 1];
      MembersCount(init, ix);
      IndexPositionsSnoc(bcs, ix);
      assert Members(bcs, ix) == Members(init, ix) + (if b.index == ix then [b] else []);
    }
  }

  /** The positions recorded for the adapters `ms`, in the same order. */
  function PositionsOf(ms: seq<Barcode>, pos: map<Barcode, nat>): (ps: seq<nat>)
    requires forall b :: b in ms ==> b in pos
  {
    seq(|ms|, k requires 0 <= k < |ms| => pos[ms[k]])
  }

  lemma PositionsOfSnoc(ms: seq<Barcode>, b: Barcode, pos: map<Barcode, nat>)
    requires forall c :: c in ms ==> c in pos
    requires b in pos
    ensures PositionsOf(ms + [b], pos) == PositionsOf(ms, pos) + [pos[b]]
  {
    var l := PositionsOf(ms + [b], pos);
    var r := PositionsOf(ms, pos) + [pos[b]];
    assert |l| == |r|;
    forall k | 0 <= k < |l|
      ensures l[k] == r[k]
    {
      if k < |ms| {
        assert (ms + [b])[k] == ms[k];
      }
    }
  }

  /** `ix_to_ij`: for every sample index, the positions of its adapters in file order. */
  function Groups(bcs: seq<Barcode>, pos: map<Barcode, nat>): (g: map<int, seq<nat>>)
    requires forall b :: b in bcs ==> b in pos
    ensures g.Keys == IndexSet(bcs)
    ensures forall ix :: ix in g ==> g[ix] != []
  {
    if bcs == [] then map[]
    else
      var b := bcs[|bcs| - 1];
      var g := Groups(bcs[..|bcs| - 1], pos);
      IndexSetSnoc(bcs);
      g[b.index := (if b.index in g then g[b.index] else []) + [pos[b]]]
  }

  /** `ix_to_ij` has one entry per sample index of the file, listing the positions of that
      index's adapters in file order. */
  lemma {:induction false} GroupsHoldMemberPositions(bcs: seq<Barcode>, pos: map<Barcode, nat>)
    requires forall b :: b in bcs ==> b in pos
    ensures Groups(bcs, pos).Keys == IndexSet(bcs)
    ensures forall ix :: ix in Groups(bcs, pos) ==> Groups(bcs, pos)[ix] == PositionsOf(Members(bcs, ix), pos)
    decreases |bcs|
  {
    if bcs != [] {
      var init := bcs[..|bcs| - 1];
      assert forall c :: c in init ==> c in bcs;
      GroupsHoldMemberPositions(init, pos);
      forall ix | ix in Groups(bcs, pos)
        ensures Groups(bcs, pos)[ix] == PositionsOf(Members(bcs, ix), pos)
      {
        GroupsSnocEntry(bcs, pos, ix);
      }
    }
  }

  /** One step of `ix_to_ij[ix].append(...)`: if the entry of `ix` lists its adapters' positions
      before the last barcode, it still does after it. */
  lemma GroupsSnocEntry(bcs: seq<Barcode>, pos: map<Barcode, nat>, ix: int)
    requires bcs != [] && forall b :: b in bcs ==> b in pos
    requires ix in Groups(bcs, pos)
    requires forall c :: c in bcs[..|bcs| - 1] ==> c in pos
    requires ix in Groups(bcs[..|bcs| - 1], pos) ==>
               Groups(bcs[..|bcs| - 1], pos)[ix] == PositionsOf(Members(bcs[..|bcs| - 1], ix), pos)
    ensures Groups(bcs, pos)[ix] == PositionsOf(Members(bcs, ix), pos)
  {
    var init := bcs[..|bcs| - 1];
    var b := bcs[|bcs| - 1];
    var g := Groups(init, pos);
    var before := Members(init, ix);
    assert Groups(bcs, pos) == g[b.index := (if b.index in g then g[b.index] else []) + [pos[b]]];
    assert Members(bcs, ix) == before + (if b.index == ix then [b] else []);
    if ix == b.index {
      if b.index !in g {
        assert before == [];
      }
      PositionsOfSnoc(before, b, pos);
    }
  }

  /** `tuple(sorted(v))` for a two-element list. */
  function SortedPair(v: seq<nat>): (p: (nat, nat))
    requires |v| == 2
    ensures p.0 <= p.1
    ensures (p.0 == v[0] && p.1 == v[1]) || (p.0 == v[1] && p.1 == v[0])
  {
    if v[0] <= v[1] then (v[0], v[1]) else (v[1], v[0])
  }

  /** `include_set`: every index of the file, cut down to the requested ones when any are given. */
  function IncludeSet(indexes: set<int>, requested: seq<int>): (inc: set<int>)
    ensures inc <= indexes
    ensures forall ix :: ix in inc <==> ix in indexes && (requested == [] || ix in requested)
  {
    if |requested| > 0 then indexes * (set k | k in requested) else indexes
  }

  /** Every index holds exactly two adapter positions, and both belong to that index. */
  ghost predicate IsPairing(bcs: seq<Barcode>, groups: map<int, seq<nat>>) {
    forall ix :: ix in groups ==>
      |groups[ix]| == 2
      && groups[ix][0] < |bcs| && bcs[groups[ix][0]].index == ix
      && groups[ix][1] < |bcs| && bcs[groups[ix][1]].index == ix
  }

  lemma GroupsArePairing(bcs: seq<Barcode>)
    requires forall ix :: ix in Groups(bcs, Positions(bcs)) ==> |Groups(bcs, Positions(bcs))[ix]| == 2
    ensures IsPairing(bcs, Groups(bcs, Positions(bcs)))
  {
    var pos := Positions(bcs);
    var g := Groups(bcs, pos);
    GroupsHoldMemberPositions(bcs, pos);
    forall ix | ix in g
      ensures g[ix][0] < |bcs| && bcs[g[ix][0]].index == ix
      ensures g[ix][1] < |bcs| && bcs[g[ix][1]].index == ix
    {
      var ms := Members(bcs, ix);
      assert g[ix][0] == pos[ms[0]] && g[ix][1] == pos[ms[1]];
    }
  }

  /** Two different indexes never share a sorted pair, because a position belongs to one index. */
  lemma PairsDistinct(bcs: seq<Barcode>, groups: map<int, seq<nat>>)
    requires IsPairing(bcs, groups)
    ensures forall ix, jx :: ix in groups && jx in groups && SortedPair(groups[ix]) == SortedPair(groups[jx]) ==> ix == jx
  {
  }

  /** The sorted pair of every included index, sent to that index's output. */
  function BasePairs(groups: map<int, seq<nat>>, included: set<int>, stem: string): (m: map<(nat, nat), OutputBam>)
    requires forall ix :: ix in groups ==> |groups[ix]| == 2
    requires included <= groups.Keys
    requires forall ix, jx :: ix in groups && jx in groups && SortedPair(groups[ix]) == SortedPair(groups[jx]) ==> ix == jx
    ensures forall ix :: ix in included ==> SortedPair(groups[ix]) in m && m[SortedPair(groups[ix])] == OutputBam(stem, ix)
    ensures forall k :: k in m ==> exists ix :: ix in included && SortedPair(groups[ix]) == k
  {
    map ix | ix in included :: SortedPair(groups[ix]) := OutputBam(stem, ix)
  }

  /** The artifact pairs `(i, i)`: adapter `i` seen at both ends, sent to its index's output. */
  function ArtifactPairs(bcs: seq<Barcode>, included: set<int>, stem: string): (m: map<(nat, nat), OutputBam>)
    ensures forall i: nat :: i < |bcs| && bcs[i].index in included ==> (i, i) in m
    ensures forall k :: k in m ==>
              k.0 == k.1 && k.0 < |bcs| && bcs[k.0].index in included && m[k] == OutputBam(stem, bcs[k.0].index)
  {
    map i: nat | i < |bcs| && bcs[i].index in included :: (i, i) := OutputBam(stem, bcs[i].index)
  }

  /** The artifact loop writes over a sorted pair exactly when the index's two adapter positions
      coincide, which a repeated adapter name causes (`RepeatedAdapterPassesPairing`); where it
      does, it writes the output already there, so no index loses its output. */
  lemma ArtifactOverlap(bcs: seq<Barcode>, groups: map<int, seq<nat>>, included: set<int>, stem: string)
    requires IsPairing(bcs, groups)
    requires included <= groups.Keys
    ensures forall ix :: ix in included ==>
              (SortedPair(groups[ix]) in ArtifactPairs(bcs, included, stem) <==> groups[ix][0] == groups[ix][1])
    ensures (PairsDistinct(bcs, groups);
             var base := BasePairs(groups, included, stem);
             var artifacts := ArtifactPairs(bcs, included, stem);
             forall k :: k in base && k in artifacts ==> base[k] == artifacts[k])
  {
    PairsDistinct(bcs, groups);
    var base := BasePairs(groups, included, stem);
    var artifacts := ArtifactPairs(bcs, included, stem);
    forall ix | ix in included
      ensures SortedPair(groups[ix]) in artifacts <==> groups[ix][0] == groups[ix][1]
    {
      var i := groups[ix][0];
      if i == groups[ix][1] {
        assert SortedPair(groups[ix]) == (i, i);
        assert bcs[i].index in included;
      }
    }
    forall k | k in base && k in artifacts
      ensures base[k] == artifacts[k]
    {
      var ix :| ix in included && SortedPair(groups[ix]) == k;
      assert bcs[k.0].index == ix;
    }
  }

  /** Some sample index has other than two adapters, counted by position in the file: the
      test `len(v) != 2` on the lists of `ix_to_ij`. */
  lemma UnpairedByCount(bcs: seq<Barcode>)
    ensures Unpaired(bcs) <==> exists ix :: ix in IndexSet(bcs) && |IndexPositions(bcs, ix)| != 2
  {
    forall ix
      ensures |Members(bcs, ix)| == |IndexPositions(bcs, ix)|
    {
      MembersCount(bcs, ix);
    }
  }

  /** `bc_mapping`: the sorted pairs, with the artifact pairs written over them when asked for. */
  function Mapping(bcs: seq<Barcode>, groups: map<int, seq<nat>>, included: set<int>,
                   stem: string, includeArtifacts: bool): map<(nat, nat), OutputBam>
    requires IsPairing(bcs, groups)
    requires included <= groups.Keys
  {
    PairsDistinct(bcs, groups);
    var base := BasePairs(groups, included, stem);
    if includeArtifacts then base + ArtifactPairs(bcs, included, stem) else base
  }

  /** The table is the sorted pairs, with the artifact pairs written over them when asked for. */
  lemma MappingParts(bcs: seq<Barcode>, groups: map<int, seq<nat>>, included: set<int>,
                     stem: string, includeArtifacts: bool)
    requires IsPairing(bcs, groups)
    requires included <= groups.Keys
    ensures forall ix, jx :: ix in groups && jx in groups && SortedPair(groups[ix]) == SortedPair(groups[jx]) ==> ix == jx
    ensures !includeArtifacts ==> Mapping(bcs, groups, included, stem, includeArtifacts) == BasePairs(groups, included, stem)
    ensures Mapping(bcs, groups, included, stem, includeArtifacts)
            == BasePairs(groups, included, stem) + if includeArtifacts then ArtifactPairs(bcs, included, stem) else map[]
  {
    PairsDistinct(bcs, groups);
    if !includeArtifacts {
      var base := BasePairs(groups, included, stem);
      assert base + map[] == base;
    }
  }

  lemma BasePairsEntry(bcs: seq<Barcode>, groups: map<int, seq<nat>>, included: set<int>,
                       stem: string, k: (nat, nat))
    requires IsPairing(bcs, groups)
    requires included <= groups.Keys
    requires forall ix, jx :: ix in groups && jx in groups && SortedPair(groups[ix]) == SortedPair(groups[jx]) ==> ix == jx
    requires k in BasePairs(groups, included, stem)
    ensures k.0 <= k.1 && k.1 < |bcs| && bcs[k.0].index == bcs[k.1].index
    ensures bcs[k.0].index in included
    ensures BasePairs(groups, included, stem)[k] == OutputBam(stem, bcs[k.0].index)
  {
    var ix :| ix in included && SortedPair(groups[ix]) == k;
    assert BasePairs(groups, included, stem)[k] == OutputBam(stem, ix);
  }

  lemma BasePairsCover(bcs: seq<Barcode>, groups: map<int, seq<nat>>, included: set<int>,
                       stem: string, ix: int)
    requires IsPairing(bcs, groups)
    requires included <= groups.Keys
    requires forall ix, jx :: ix in groups && jx in groups && SortedPair(groups[ix]) == SortedPair(groups[jx]) ==> ix == jx
    requires ix in included
    ensures SortedPair(groups[ix]) in BasePairs(groups, included, stem)
    ensures BasePairs(groups, included, stem)[SortedPair(groups[ix])] == OutputBam(stem, ix)
  {
  }

  /** Every key of `m` is an ascending pair of positions of one included index, sent to that
      index's output. */
  ghost predicate KeyedByIncluded(bcs: seq<Barcode>, included: set<int>, stem: string,
                                  m: map<(nat, nat), OutputBam>) {
    forall k :: k in m ==>
      && k.0 <= k.1 && k.1 < |bcs|
      && bcs[k.0].index == bcs[k.1].index
      && bcs[k.0].index in included
      && m[k] == OutputBam(stem, bcs[k.0].index)
  }

  lemma KeyedByIncludedUnion(bcs: seq<Barcode>, included: set<int>, stem: string,
                             a: map<(nat, nat), OutputBam>, b: map<(nat, nat), OutputBam>)
    requires KeyedByIncluded(bcs, included, stem, a) && KeyedByIncluded(bcs, included, stem, b)
    ensures KeyedByIncluded(bcs, included, stem, a + b)
  {
    forall k | k in a + b
      ensures (a + b)[k] == if k in b then b[k] else a[k]
    {
    }
  }

  lemma BasePairsKeyed(bcs: seq<Barcode>, groups: map<int, seq<nat>>, included: set<int>, stem: string)
    requires IsPairing(bcs, groups)
    requires included <= groups.Keys
    requires forall ix, jx :: ix in groups && jx in groups && SortedPair(groups[ix]) == SortedPair(groups[jx]) ==> ix == jx
    ensures KeyedByIncluded(bcs, included, stem, BasePairs(groups, included, stem))
  {
    forall k | k in BasePairs(groups, included, stem)
      ensures k.0 <= k.1 && k.1 < |bcs| && bcs[k.0].index == bcs[k.1].index
      ensures bcs[k.0].index in included
      ensures BasePairs(groups, included, stem)[k] == OutputBam(stem, bcs[k.0].index)
    {
      BasePairsEntry(bcs, groups, included, stem, k);
    }
  }

  /** Every entry of the table is an ascending pair of positions of one included index, sent
      to that index's output. */
  lemma MappingEntries(bcs: seq<Barcode>, groups: map<int, seq<nat>>, included: set<int>,
                       stem: string, includeArtifacts: bool)
    requires IsPairing(bcs, groups)
    requires included <= groups.Keys
    ensures KeyedByIncluded(bcs, included, stem, Mapping(bcs, groups, included, stem, includeArtifacts))
  {
    MappingParts(bcs, groups, included, stem, includeArtifacts);
    var base := BasePairs(groups, included, stem);
    var artifacts := if includeArtifacts then ArtifactPairs(bcs, included, stem) else map[];
    assert KeyedByIncluded(bcs, included, stem, base) by {
      BasePairsKeyed(bcs, groups, included, stem);
    }
    assert KeyedByIncluded(bcs, included, stem, base + artifacts) by {
      assert KeyedByIncluded(bcs, included, stem, artifacts);
      KeyedByIncludedUnion(bcs, included, stem, base, artifacts);
    }
  }

  /** Every included index has its sorted pair in the table, sent to its own output: the
      artifact pairs written over the table never send a pair elsewhere. */
  lemma MappingReachesIncluded(bcs: seq<Barcode>, groups: map<int, seq<nat>>, included: set<int>,
                               stem: string, includeArtifacts: bool)
    requires IsPairing(bcs, groups)
    requires included <= groups.Keys
    ensures var m := Mapping(bcs, groups, included, stem, includeArtifacts);
      forall ix :: ix in included ==>
        SortedPair(groups[ix]) in m && m[SortedPair(groups[ix])] == OutputBam(stem, ix)
  {
    MappingParts(bcs, groups, included, stem, includeArtifacts);
    var base := BasePairs(groups, included, stem);
    var artifacts := if includeArtifacts then ArtifactPairs(bcs, included, stem) else map[];
    var m := Mapping(bcs, groups, included, stem, includeArtifacts);
    forall ix | ix in included
      ensures SortedPair(groups[ix]) in m && m[SortedPair(groups[ix])] == OutputBam(stem, ix)
    {
      var k := SortedPair(groups[ix]);
      BasePairsCover(bcs, groups, included, stem, ix);
      if k in artifacts {
        assert bcs[k.0].index == ix;
        assert m[k] == artifacts[k];
      } else {
        assert m[k] == base[k];
      }
    }
  }

  /** With artifacts, every adapter `i` of an included index sends `(i, i)` to its index's output. */
  lemma MappingArtifacts(bcs: seq<Barcode>, groups: map<int, seq<nat>>, included: set<int>, stem: string)
    requires IsPairing(bcs, groups)
    requires included <= groups.Keys
    ensures var m := Mapping(bcs, groups, included, stem, true);
      forall i: nat :: i < |bcs| && bcs[i].index in included ==>
        (i, i) in m && m[(i, i)] == OutputBam(stem, bcs[i].index)
  {
    MappingParts(bcs, groups, included, stem, true);
    var artifacts := ArtifactPairs(bcs, included, stem);
    forall i: nat | i < |bcs| && bcs[i].index in included
      ensures (i, i) in artifacts && artifacts[(i, i)] == OutputBam(stem, bcs[i].index)
    {
    }
  }

  /** Without artifacts, each output is reached from exactly one pair. */
  lemma MappingOnePairPerOutput(bcs: seq<Barcode>, groups: map<int, seq<nat>>, included: set<int>, stem: string)
    requires IsPairing(bcs, groups)
    requires included <= groups.Keys
    ensures var m := Mapping(bcs, groups, included, stem, false);
      forall k1, k2 :: k1 in m && k2 in m && m[k1] == m[k2] ==> k1 == k2
  {
    PairsDistinct(bcs, groups);
    var base := BasePairs(groups, included, stem);
    MappingParts(bcs, groups, included, stem, false);
    forall k1, k2 | k1 in base && k2 in base && base[k1] == base[k2]
      ensures k1 == k2
    {
      BasePairsOneEach(groups, included, stem, k1, k2);
    }
  }

  /** Two keys of the sorted pairs with the same output are the same key. */
  lemma BasePairsOneEach(groups: map<int, seq<nat>>, included: set<int>, stem: string, k1: (nat, nat), k2: (nat, nat))
    requires forall ix :: ix in groups ==> |groups[ix]| == 2
    requires included <= groups.Keys
    requires forall ix, jx :: ix in groups && jx in groups && SortedPair(groups[ix]) == SortedPair(groups[jx]) ==> ix == jx
    requires k1 in BasePairs(groups, included, stem) && k2 in BasePairs(groups, included, stem)
    requires BasePairs(groups, included, stem)[k1] == BasePairs(groups, included, stem)[k2]
    ensures k1 == k2
  {
    var base := BasePairs(groups, included, stem);
    var ix1 :| ix1 in included && SortedPair(groups[ix1]) == k1;
    var ix2 :| ix2 in included && SortedPair(groups[ix2]) == k2;
    assert base[k1] == OutputBam(stem, ix1) && base[k2] == OutputBam(stem, ix2);
  }

  /** The table's outputs are exactly one per included index. */
  lemma MappingOutputs(bcs: seq<Barcode>, groups: map<int, seq<nat>>, included: set<int>,
                       stem: string, includeArtifacts: bool)
    requires IsPairing(bcs, groups)
    requires included <= groups.Keys
    ensures Mapping(bcs, groups, included, stem, includeArtifacts).Values
            == (set ix | ix in included :: OutputBam(stem, ix))
  {
    MappingEntries(bcs, groups, included, stem, includeArtifacts);
    MappingReachesIncluded(bcs, groups, included, stem, includeArtifacts);
    TableOutputs(bcs, groups, included, stem, Mapping(bcs, groups, included, stem, includeArtifacts));
  }

  /** A table keyed by the included indexes that reaches each of them has one output per
      included index. */
  lemma TableOutputs(bcs: seq<Barcode>, groups: map<int, seq<nat>>, included: set<int>, stem: string,
                     m: map<(nat, nat), OutputBam>)
    requires forall ix :: ix in groups ==> |groups[ix]| == 2
    requires included <= groups.Keys
    requires KeyedByIncluded(bcs, included, stem, m)
    requires forall ix :: ix in included ==>
               SortedPair(groups[ix]) in m && m[SortedPair(groups[ix])] == OutputBam(stem, ix)
    ensures m.Values == (set ix | ix in included :: OutputBam(stem, ix))
  {
    var outputs := set ix | ix in included :: OutputBam(stem, ix);
    forall o | o in m.Values
      ensures o in outputs
    {
      var k :| k in m && m[k] == o;
    }
    forall o | o in outputs
      ensures o in m.Values
    {
      var ix :| ix in included && o == OutputBam(stem, ix);
      assert m[SortedPair(groups[ix])] == o;
    }
  }

  /** The whole front end: the table handed to the splitter, or the reason it exits. */
  function BuildMapping(lines: seq<string>, stem: string, includeArtifacts: bool,
                        requested: seq<int>): (r: Result<map<(nat, nat), OutputBam>, CliExit>)
    ensures ParseBarcodes(lines).Failure? ==> r == Failure(BadIndexNames)
    ensures ParseBarcodes(lines).Success? ==> r != Failure(BadIndexNames)
  {
    match ParseBarcodes(lines)
    case Failure(e) => Failure(e)
    case Success(bcs) =>
      var groups := Groups(bcs, Positions(bcs));
      if exists ix :: ix in groups && |groups[ix]| != 2 then Failure(UnpairedIndex)
      else
        GroupsArePairing(bcs);
        Success(Mapping(bcs, groups, IncludeSet(groups.Keys, requested), stem, includeArtifacts))
  }

  /** Some sample index has other than two adapters. */
  predicate Unpaired(bcs: seq<Barcode>) {
    exists ix :: ix in IndexSet(bcs) && |Members(bcs, ix)| != 2
  }

  /** The front end exits at the unpacking of the names exactly when some name lacks a `_`
      or has an index that is not an integer. */
  lemma BuildMappingBadNames(lines: seq<string>, stem: string, includeArtifacts: bool, requested: seq<int>)
    ensures BuildMapping(lines, stem, includeArtifacts, requested) == Failure(BadIndexNames) <==>
              exists k :: 0 <= k < |HeaderNames(lines)| && !IsBarcodeName(HeaderNames(lines)[k])
  {
    var names := HeaderNames(lines);
    assert ParseBarcodes(lines) == ToBarcodes(names);
    if ParseBarcodes(lines).Failure? {
      assert BuildMapping(lines, stem, includeArtifacts, requested) == Failure(BadIndexNames);
      var k :| 0 <= k < |names| && !IsBarcodeName(names[k]);
    } else {
      assert BuildMapping(lines, stem, includeArtifacts, requested) != Failure(BadIndexNames);
    }
  }

  /** Once the names are unpacked, the front end exits exactly when some sample index has
      other than two adapters. */
  lemma BuildMappingUnpaired(lines: seq<string>, stem: string, includeArtifacts: bool, requested: seq<int>)
    ensures BuildMapping(lines, stem, includeArtifacts, requested) == Failure(UnpairedIndex) <==>
              ParseBarcodes(lines).Success? && Unpaired(ParseBarcodes(lines).value)
  {
    if ParseBarcodes(lines).Success? {
      var bcs := ParseBarcodes(lines).value;
      var groups := Groups(bcs, Positions(bcs));
      GroupsHoldMemberPositions(bcs, Positions(bcs));
      if Unpaired(bcs) {
        var ix :| ix in IndexSet(bcs) && |Members(bcs, ix)| != 2;
        assert ix in groups && |groups[ix]| != 2;
      }
    }
  }

  /** A table built by the front end: every key is an ascending pair of adapter positions of
      one included index and sends its records to that index's output; every included index
      is reached; the included indexes are the file's, cut down to the requested ones. */
  lemma BuildMappingSound(lines: seq<string>, stem: string, includeArtifacts: bool,
                          requested: seq<int>, m: map<(nat, nat), OutputBam>)
    requires BuildMapping(lines, stem, includeArtifacts, requested) == Success(m)
    ensures ParseBarcodes(lines).Success?
    ensures var bcs := ParseBarcodes(lines).value;
      var included := IncludeSet(IndexSet(bcs), requested);
      && (forall k :: k in m ==>
            && k.0 <= k.1 && k.1 < |bcs|
            && bcs[k.0].index == bcs[k.1].index
            && bcs[k.0].index in included
            && m[k] == OutputBam(stem, bcs[k.0].index))
      && m.Values == (set ix | ix in included :: OutputBam(stem, ix))
      && (includeArtifacts ==> forall i: nat :: i < |bcs| && bcs[i].index in included ==>
            (i, i) in m && m[(i, i)] == OutputBam(stem, bcs[i].index))
      && (!includeArtifacts ==> forall k1, k2 :: k1 in m && k2 in m && m[k1] == m[k2] ==> k1 == k2)
  {
    var bcs := ParseBarcodes(lines).value;
    var groups := Groups(bcs, Positions(bcs));
    GroupsHoldMemberPositions(bcs, Positions(bcs));
    GroupsArePairing(bcs);
    var included := IncludeSet(groups.Keys, requested);
    MappingEntries(bcs, groups, included, stem, includeArtifacts);
    MappingOutputs(bcs, groups, included, stem, includeArtifacts);
    if includeArtifacts {
      MappingArtifacts(bcs, groups, included, stem);
    } else {
      MappingOnePairPerOutput(bcs, groups, included, stem);
    }
  }

  /** An adapter listed twice counts as two adapters of its index: both entries share the
      last position, so the two-per-index check passes and the index's pair is that position
      twice. */
  lemma RepeatedAdapterPassesPairing(b: Barcode)
    ensures var bcs := [b, b];
      var g := Groups(bcs, Positions(bcs));
      && !Unpaired(bcs)
      && g.Keys == {b.index}
      && g[b.index] == [1, 1]
      && SortedPair(g[b.index]) == (1, 1)
  {
    var bcs := [b, b];
    var pos := Positions(bcs);
    TwiceMembers(b);
    TwicePositions(b);
    GroupsHoldMemberPositions(bcs, pos);
  }

  lemma TwiceMembers(b: Barcode)
    ensures IndexSet([b, b]) == {b.index}
    ensures Members([b, b], b.index) == [b, b]
    ensures !Unpaired([b, b])
  {
    var bcs := [b, b];
    assert bcs[..1] == [b];
    assert [b][..0] == [];
    assert Members([b], b.index) == [b];
    assert bcs[0].index == b.index;
  }

  lemma TwicePositions(b: Barcode)
    ensures b in Positions([b, b]) && Positions([b, b])[b] == 1
    ensures PositionsOf([b, b], Positions([b, b])) == [1, 1]
  {
  }
}

=== FILE: composition.dfy ===
/** The command-line front end feeding the asynchronous splitter: the table it builds, keyed
    by ascending pairs of adapter positions, handed over as two-element vectors. */
module Composition {
  import opened Wrappers
  import opened Cli
  import opened Records
  import opened Router
  import opened Pipeline

  /** Every position in the table fits an element of the `bc` array. */
  predicate FitsUInt16(m: map<(nat, nat), OutputBam>) {
    forall k :: k in m ==> k.0 < 0x1_0000 && k.1 < 0x1_0000
  }

  /** The front end's table as the splitter receives it: each pair becomes the vector of its
      two positions, in the same order. */
  function AsRouterTable(m: map<(nat, nat), OutputBam>): (t: map<seq<uint16>, OutputBam>)
    requires FitsUInt16(m)
    ensures forall v :: v in t ==> |v| == 2 && (v[0] as nat, v[1] as nat) in m && t[v] == m[(v[0] as nat, v[1] as nat)]
    ensures forall k :: k in m ==> [k.0 as uint16, k.1 as uint16] in t
  {
    map k | k in m :: [k.0 as uint16, k.1 as uint16] := m[k]
  }

  lemma TwoElements(v: seq<uint16>)
    requires |v| == 2
    ensures v == [v[0], v[1]]
  {
  }

  /** Every key of `m` is an ascending pair of positions in `bcs` of adapters of one sample
      index, and sends its records to that index's output. */
  ghost predicate KeyedByPairs(bcs: seq<Barcode>, stem: string, m: map<(nat, nat), OutputBam>) {
    forall k :: k in m ==>
      && k.0 <= k.1 && k.1 < |bcs|
      && bcs[k.0].index == bcs[k.1].index
      && m[k] == OutputBam(stem, bcs[k.0].index)
  }

  /** The keys of the front end's table, as the splitter sees them: ascending pairs of
      adapter positions of one sample index, each sent to that index's output. */
  lemma BuildMappingKeyed(lines: seq<string>, stem: string, includeArtifacts: bool,
                          requested: seq<int>, m: map<(nat, nat), OutputBam>)
    requires BuildMapping(lines, stem, includeArtifacts, requested) == Success(m)
    ensures ParseBarcodes(lines).Success?
    ensures KeyedByPairs(ParseBarcodes(lines).value, stem, m)
  {
    BuildMappingSound(lines, stem, includeArtifacts, requested, m);
  }

  /** The front end sorts every pair and the splitter never does: a record whose decoded pair
      is descending is dropped by any table the front end builds. */
  lemma DescendingPairNeverRouted(lines: seq<string>, stem: string, includeArtifacts: bool,
                                  requested: seq<int>, m: map<(nat, nat), OutputBam>, bc: BcField)
    requires BuildMapping(lines, stem, includeArtifacts, requested) == Success(m)
    requires FitsUInt16(m)
    requires bc.UInt16Array? && |Decoded(bc.elements)| == 2 && Decoded(bc.elements)[0] > Decoded(bc.elements)[1]
    ensures Decide(AsRouterTable(m), bc) == Drop
  {
    var v := Decoded(bc.elements);
    BuildMappingKeyed(lines, stem, includeArtifacts, requested, m);
    assert v !in AsRouterTable(m);
  }

  /** `v` is an ascending pair of positions in `bcs` of two adapters of the index `ix`. */
  ghost predicate AdaptersOf(bcs: seq<Barcode>, v: seq<uint16>, ix: int) {
    && |v| == 2 && v[0] <= v[1] && (v[1] as int) < |bcs|
    && bcs[v[0]].index == ix && bcs[v[1]].index == ix
  }

  /** Under such a table, a record whose decoded pair is a key goes to the output of the index
      both its adapters belong to. */
  lemma RoutedByKey(bcs: seq<Barcode>, stem: string, m: map<(nat, nat), OutputBam>, bc: BcField)
    requires KeyedByPairs(bcs, stem, m) && FitsUInt16(m)
    requires bc.UInt16Array? && |Decoded(bc.elements)| == 2
    requires (Decoded(bc.elements)[0] as nat, Decoded(bc.elements)[1] as nat) in m
    ensures exists ix :: AdaptersOf(bcs, Decoded(bc.elements), ix)
                         && Decide(AsRouterTable(m), bc) == RouteTo(OutputBam(stem, ix))
  {
    var v := Decoded(bc.elements);
    var k: (nat, nat) := (v[0] as nat, v[1] as nat);
    var t := AsRouterTable(m);
    assert v in t && t[v] == m[k] by {
      TwoElements(v);
      assert [k.0 as uint16, k.1 as uint16] in t;
    }
    assert AdaptersOf(bcs, v, bcs[k.0].index);
  }

  /** End to end: the file of a sample index receives only records whose decoded pair is an
      ascending pair of that index's adapters (or, with artifacts, one adapter twice). */
  lemma OutputHoldsItsIndex<X>(lines: seq<string>, stem: string, includeArtifacts: bool,
                               requested: seq<int>, m: map<(nat, nat), OutputBam>,
                               recs: seq<Record<X>>, ix: int)
    requires BuildMapping(lines, stem, includeArtifacts, requested) == Success(m)
    requires FitsUInt16(m)
    ensures ParseBarcodes(lines).Success?
    ensures var out := Delivered(AsyncDecide<OutputBam, X>(AsRouterTable(m)), recs, OutputBam(stem, ix));
      forall n :: 0 <= n < |out| ==>
        out[n].bc.UInt16Array? && AdaptersOf(ParseBarcodes(lines).value, Decoded(out[n].bc.elements), ix)
  {
    BuildMappingKeyed(lines, stem, includeArtifacts, requested, m);
    var decide := AsyncDecide<OutputBam, X>(AsRouterTable(m));
    var out := Delivered(decide, recs, OutputBam(stem, ix));
    DeliveredOnlySent(decide, recs, OutputBam(stem, ix));
    forall n | 0 <= n < |out|
      ensures out[n].bc.UInt16Array? && AdaptersOf(ParseBarcodes(lines).value, Decoded(out[n].bc.elements), ix)
    {
      assert Sends(decide, out[n], OutputBam(stem, ix));
      var v := Decoded(out[n].bc.elements);
      assert v in AsRouterTable(m);
      RoutedByKey(ParseBarcodes(lines).value, stem, m, out[n].bc);
    }
  }
}

=== FILE: pipeline.dfy ===
/** The two splitters end to end: read the header, check and extend it, open one writer per
    output path, route the records, and (in the asynchronous splitter only) shut the writers
    down. The reader, the file system and the header edit are parameters. */
module Pipeline {
  import opened Wrappers
  import opened Records
  import opened Writers
  import opened Router

  /** A SAM header: the IDs of its program records, and everything else, left opaque. */
  datatype Header<H> = Header(programs: set<string>, rest: H)

  /** How the record stream ended: cleanly, or with a read error after the records read. */
  datatype End = Eof | ReadError

  /** What the reader yields once it is made: the header, the records read, how it ended. */
  datatype Input<H, R> = Input(header: Header<H>, records: seq<R>, end: End)

  /** The outcome of a run: what each output file holds, whether the missing-lima warning was
      logged, the lengths reported by the odd-array debug messages, and the error, if any. */
  datatype Run<P, H, R> = Run(files: map<P, Log<Header<H>, R>>, limaWarning: bool, oddLengths: seq<nat>,
                              error: Option<Error<P>>)

  /** The program ID that the demultiplexing tool leaves in the header of its BAMs. */
  const Lima: string := "lima"

  /** The routing decision of the asynchronous splitter, by the `bc` field of a record. */
  function AsyncDecide<P, X>(table: map<seq<uint16>, P>): Record<X> -> Decision<P> {
    (r: Record<X>) => Decide(table, r.bc)
  }

  /** The routing decision of the legacy splitter. */
  function LegacyDecideFor<P, X>(table: map<(uint16, uint16), P>): LegacyRecord<X> -> Decision<P> {
    (r: LegacyRecord<X>) => LegacyDecide(table, r.bc)
  }

  lemma EnumeratedSet<P(!new)>(order: seq<P>, paths: set<P>)
    requires Enumerates(order, paths)
    ensures (set j | 0 <= j < |order| :: order[j]) == paths
  {
    forall p | p in paths
      ensures p in (set j | 0 <= j < |order| :: order[j])
    {
      var j :| 0 <= j < |order| && order[j] == p;
    }
  }

  /** `async_split_bam`. `input` is what `make_reader` yields (`None` when it fails);
      `addProgramTag` is the header edit (`None` when it fails); `openOrder` and `closeOrder`
      are the iteration orders of the path set and of the writer map. A missing `lima`
      program only logs a warning. Nothing is shut down on any error path. */
  function AsyncSplitBam<P(!new), H, X>(cliCmd: string, input: Option<Input<H, Record<X>>>,
                                       addProgramTag: (string, Header<H>) -> Option<Header<H>>,
                                       table: map<seq<uint16>, P>, faults: Faults<P>,
                                       openOrder: seq<P>, closeOrder: seq<P>): (run: Run<P, H, Record<X>>)
    requires Enumerates(openOrder, table.Values)
    requires Enumerates(closeOrder, table.Values)
    ensures run.limaWarning <==> input.Some? && Lima !in input.value.header.programs
    ensures input.None? ==> run.error == Some(ReaderFailed) && run.files == map[]
    ensures input.Some? && addProgramTag(cliCmd, input.value.header).None? ==>
              run.error == Some(HeaderEditFailed) && run.files == map[]
    ensures run.error.None? ==> run.files.Keys == table.Values
  {
    if input.None? then Run(map[], false, [], Some(ReaderFailed))
    else
      var inp := input.value;
      var warned := Lima !in inp.header.programs;
      match addProgramTag(cliCmd, inp.header)
      case None => Run(map[], warned, [], Some(HeaderEditFailed))
      case Some(h) =>
        var pool := OpenEach(faults, h, openOrder, map[]);
        OpenEachPool<P, Header<H>, Record<X>>(faults, h, openOrder, map[]);
        if pool.error.Some? then Run(pool.writers, warned, [], pool.error)
        else
          EnumeratedSet(openOrder, table.Values);
          ReadAndClose(AsyncDecide(table), warned, inp.records, inp.end, faults, closeOrder, pool.writers)
  }

  /** The record loop of the asynchronous splitter and the shutdowns after it, once every
      writer is made: a failed write or a read error ends the run at once; otherwise every
      writer is shut down in the order of the writer map. */
  function ReadAndClose<P(!new), H, R>(decide: R -> Decision<P>, warned: bool, recs: seq<R>, end: End,
                                      faults: Faults<P>, closeOrder: seq<P>,
                                      writers: map<P, Log<Header<H>, R>>): (run: Run<P, H, R>)
    requires Enumerates(closeOrder, writers.Keys)
    ensures run.files.Keys == writers.Keys
    ensures run.limaWarning == warned
  {
    var routed := Route(decide, faults.writeFailsAt, writers, recs, 0);
    if routed.error.Some? then Run(routed.files, warned, routed.oddLengths, routed.error)
    else if end == ReadError then Run(routed.files, warned, routed.oddLengths, Some(ReadFailed(|recs|)))
    else
      var closed := ShutdownEach(faults, closeOrder, routed.files);
      Run(closed.writers, warned, routed.oddLengths, closed.error)
  }

  /** The writer of `p` is shut down at the end of a run that got that far: the read loop met
      no write failure and no read error, and `p` comes before the first writer whose shutdown
      fails. */
  predicate ShutDownAtEnd<P(==)>(p: P, recordsDone: bool, faults: Faults<P>, closeOrder: seq<P>) {
    recordsDone && p in closeOrder[..FirstFailedShutdown(faults, closeOrder)]
  }

  /** Each writer gains exactly the records routed to it, in input order, up to the first
      failing write, and then a shutdown exactly when the run got to shut it down. */
  lemma ReadAndCloseFiles<P(!new), H, R>(decide: R -> Decision<P>, warned: bool, recs: seq<R>, end: End,
                                         faults: Faults<P>, closeOrder: seq<P>,
                                         writers: map<P, Log<Header<H>, R>>)
    requires Enumerates(closeOrder, writers.Keys)
    ensures var run := ReadAndClose(decide, warned, recs, end, faults, closeOrder, writers);
      var k := FirstWriteFailure(decide, writers.Keys, faults.writeFailsAt, recs, 0);
      var done := k == |recs| && end == Eof;
      forall p :: p in run.files ==>
        run.files[p] == writers[p] + Written(Delivered(decide, recs[..k], p))
                        + (if ShutDownAtEnd(p, done, faults, closeOrder) then [ShutDown] else [])
  {
    var run := ReadAndClose(decide, warned, recs, end, faults, closeOrder, writers);
    forall p | p in run.files
      ensures var k := FirstWriteFailure(decide, writers.Keys, faults.writeFailsAt, recs, 0);
        var done := k == |recs| && end == Eof;
        run.files[p] == writers[p] + Written(Delivered(decide, recs[..k], p))
                        + (if ShutDownAtEnd(p, done, faults, closeOrder) then [ShutDown] else [])
    {
      ReadAndCloseFile(decide, warned, recs, end, faults, closeOrder, writers, p);
    }
  }

  /** The file of one writer `p` after the loop and the shutdowns. */
  lemma ReadAndCloseFile<P(!new), H, R>(decide: R -> Decision<P>, warned: bool, recs: seq<R>, end: End,
                                        faults: Faults<P>, closeOrder: seq<P>,
                                        writers: map<P, Log<Header<H>, R>>, p: P)
    requires Enumerates(closeOrder, writers.Keys)
    requires p in writers
    ensures var run := ReadAndClose(decide, warned, recs, end, faults, closeOrder, writers);
      var k := FirstWriteFailure(decide, writers.Keys, faults.writeFailsAt, recs, 0);
      var done := k == |recs| && end == Eof;
      run.files[p] == writers[p] + Written(Delivered(decide, recs[..k], p))
                      + (if ShutDownAtEnd(p, done, faults, closeOrder) then [ShutDown] else [])
  {
    var routed := Route(decide, faults.writeFailsAt, writers, recs, 0);
    var k := FirstWriteFailure(decide, writers.Keys, faults.writeFailsAt, recs, 0);
    var done := k == |recs| && end == Eof;
    ReadAndCloseRouted(decide, warned, recs, end, faults, closeOrder, writers);
    assert routed.files[p] == writers[p] + Written(Delivered(decide, recs[..k], p)) by {
      RouteFiles(decide, faults.writeFailsAt, writers, recs, 0);
    }
    if done {
      RouteRunsThrough(decide, faults.writeFailsAt, writers, recs);
    } else {
      RouteStopsAtFailure(decide, faults.writeFailsAt, writers, recs);
    }
  }

  /** How a run that made every writer is read off the record loop's outcome. */
  lemma ReadAndCloseRouted<P(!new), H, R>(decide: R -> Decision<P>, warned: bool, recs: seq<R>, end: End,
                                          faults: Faults<P>, closeOrder: seq<P>,
                                          writers: map<P, Log<Header<H>, R>>)
    requires Enumerates(closeOrder, writers.Keys)
    ensures var run := ReadAndClose(decide, warned, recs, end, faults, closeOrder, writers);
      var routed := Route(decide, faults.writeFailsAt, writers, recs, 0);
      && run.oddLengths == routed.oddLengths
      && (routed.error.Some? ==> run.files == routed.files && run.error == routed.error)
      && (routed.error.None? && end == ReadError ==> run.files == routed.files && run.error == Some(ReadFailed(|recs|)))
      && (routed.error.None? && end == Eof ==>
            var closed := ShutdownEach(faults, closeOrder, routed.files);
            run.files == closed.writers && run.error == closed.error)
  {
  }

  /** The loop ends at the first failing write, or else at a read error; only a run whose
      records were all read and written shuts the writers down, and it succeeds exactly when
      every shutdown does. The debug messages are those of the records looked at. */
  lemma ReadAndCloseOutcome<P(!new), H, R>(decide: R -> Decision<P>, warned: bool, recs: seq<R>, end: End,
                                           faults: Faults<P>, closeOrder: seq<P>,
                                           writers: map<P, Log<Header<H>, R>>)
    requires Enumerates(closeOrder, writers.Keys)
    ensures var run := ReadAndClose(decide, warned, recs, end, faults, closeOrder, writers);
      var k := FirstWriteFailure(decide, writers.Keys, faults.writeFailsAt, recs, 0);
      var j := FirstFailedShutdown(faults, closeOrder);
      && run.oddLengths == OddLengths(decide, recs[..k])
      && (k < |recs| ==> run.error == Some(RecordWriteFailed(decide(recs[k]).path, k)))
      && (k == |recs| && end == ReadError ==> run.error == Some(ReadFailed(|recs|)))
      && (k == |recs| && end == Eof ==> (run.error.None? <==> j == |closeOrder|))
      && (k == |recs| && end == Eof && j < |closeOrder| ==> run.error == Some(ShutdownFailed(closeOrder[j])))
  {
    ReadAndCloseRouted(decide, warned, recs, end, faults, closeOrder, writers);
    RouteOddLengths(decide, faults.writeFailsAt, writers, recs, 0);
    RouteStopsAtFailure(decide, faults.writeFailsAt, writers, recs);
    RouteRunsThrough(decide, faults.writeFailsAt, writers, recs);
  }

  /** The first writer that cannot be made stops the run with that writer's error. The writers
      made before it had the header and the reference sequences written and nothing else: no
      record is read, and the `?` drops them without a shutdown. */
  lemma AsyncOpenFailure<P(!new), H, X>(cliCmd: string, input: Option<Input<H, Record<X>>>,
                                        addProgramTag: (string, Header<H>) -> Option<Header<H>>,
                                        table: map<seq<uint16>, P>, faults: Faults<P>,
                                        openOrder: seq<P>, closeOrder: seq<P>)
    requires Enumerates(openOrder, table.Values)
    requires Enumerates(closeOrder, table.Values)
    requires input.Some? && addProgramTag(cliCmd, input.value.header).Some?
    requires FirstUnopenable(faults, openOrder) < |openOrder|
    ensures var run := AsyncSplitBam(cliCmd, input, addProgramTag, table, faults, openOrder, closeOrder);
      var h := addProgramTag(cliCmd, input.value.header).value;
      var m := FirstUnopenable(faults, openOrder);
      && run.error == Some(MakeWriter<P, Header<H>, Record<X>>(faults, h, openOrder[m]).error)
      && run.error.value.path == openOrder[m]
      && (forall p :: p in run.files <==> p in openOrder[..m])
      && (forall p :: p in run.files ==> run.files[p] == OpenedLog(h))
      && run.oddLengths == []
  {
    var h := addProgramTag(cliCmd, input.value.header).value;
    OpenEachPool<P, Header<H>, Record<X>>(faults, h, openOrder, map[]);
  }

  /** Once every writer is made: each file holds the edited header, the reference sequences,
      then exactly the records routed to it, in input order, up to the first failing write;
      the loop ends at the first failing write or at the read error; only a run whose records
      were all read and written goes on to shut the writers down, in order, stopping at the
      first shutdown that fails. */
  lemma AsyncAfterOpening<P(!new), H, X>(cliCmd: string, input: Option<Input<H, Record<X>>>,
                                         addProgramTag: (string, Header<H>) -> Option<Header<H>>,
                                         table: map<seq<uint16>, P>, faults: Faults<P>,
                                         openOrder: seq<P>, closeOrder: seq<P>)
    requires Enumerates(openOrder, table.Values)
    requires Enumerates(closeOrder, table.Values)
    requires input.Some? && addProgramTag(cliCmd, input.value.header).Some?
    requires FirstUnopenable(faults, openOrder) == |openOrder|
    ensures var run := AsyncSplitBam(cliCmd, input, addProgramTag, table, faults, openOrder, closeOrder);
      var h := addProgramTag(cliCmd, input.value.header).value;
      var recs := input.value.records;
      var decide := AsyncDecide<P, X>(table);
      var k := FirstWriteFailure(decide, table.Values, faults.writeFailsAt, recs, 0);
      var done := k == |recs| && input.value.end == Eof;
      var j := FirstFailedShutdown(faults, closeOrder);
      && run.files.Keys == table.Values
      && (forall p :: p in run.files ==>
            run.files[p] == OpenedLog(h) + Written(Delivered(decide, recs[..k], p))
                            + (if ShutDownAtEnd(p, done, faults, closeOrder) then [ShutDown] else []))
      && run.oddLengths == OddLengths(decide, recs[..k])
      && (k < |recs| ==> run.error == Some(RecordWriteFailed(decide(recs[k]).path, k)))
      && (k == |recs| && input.value.end == ReadError ==> run.error == Some(ReadFailed(|recs|)))
      && (done ==> (run.error.None? <==> j == |closeOrder|))
      && (done && j < |closeOrder| ==> run.error == Some(ShutdownFailed(closeOrder[j])))
  {
    var h := addProgramTag(cliCmd, input.value.header).value;
    var recs := input.value.records;
    var decide := AsyncDecide<P, X>(table);
    var warned := Lima !in input.value.header.programs;
    var pool := OpenEach<P, Header<H>, Record<X>>(faults, h, openOrder, map[]);
    OpenEachPool<P, Header<H>, Record<X>>(faults, h, openOrder, map[]);
    EnumeratedSet(openOrder, table.Values);
    assert pool.writers.Keys == table.Values;
    assert pool.error.None?;
    forall p | p in pool.writers
      ensures pool.writers[p] == OpenedLog(h)
    {
      var i :| 0 <= i < |openOrder| && openOrder[i] == p;
    }
    assert AsyncSplitBam(cliCmd, input, addProgramTag, table, faults, openOrder, closeOrder)
           == ReadAndClose(decide, warned, recs, input.value.end, faults, closeOrder, pool.writers);
    ReadAndCloseFiles(decide, warned, recs, input.value.end, faults, closeOrder, pool.writers);
    ReadAndCloseOutcome(decide, warned, recs, input.value.end, faults, closeOrder, pool.writers);
  }

  /** The run succeeds exactly when the reader and the header edit succeed, every writer is
      made, no record write fails, the stream ends cleanly and every shutdown succeeds; then
      every output path has a file that holds the header, the reference sequences, exactly
      the records routed to it in input order, and one shutdown. */
  lemma AsyncSuccess<P(!new), H, X>(cliCmd: string, input: Option<Input<H, Record<X>>>,
                                    addProgramTag: (string, Header<H>) -> Option<Header<H>>,
                                    table: map<seq<uint16>, P>, faults: Faults<P>,
                                    openOrder: seq<P>, closeOrder: seq<P>)
    requires Enumerates(openOrder, table.Values)
    requires Enumerates(closeOrder, table.Values)
    ensures var run := AsyncSplitBam(cliCmd, input, addProgramTag, table, faults, openOrder, closeOrder);
      run.error.None? <==>
        && input.Some?
        && addProgramTag(cliCmd, input.value.header).Some?
        && (forall p :: p in table.Values ==> Opens(faults, p))
        && (forall i :: 0 <= i < |input.value.records| ==>
              !WriteFails(AsyncDecide<P, X>(table), table.Values, faults.writeFailsAt, input.value.records[i], i))
        && input.value.end == Eof
        && (forall p :: p in table.Values ==> p !in faults.shutdownFails)
    ensures var run := AsyncSplitBam(cliCmd, input, addProgramTag, table, faults, openOrder, closeOrder);
      run.error.None? ==>
        forall p :: p in run.files ==>
          run.files[p] == OpenedLog(addProgramTag(cliCmd, input.value.header).value)
                          + Written(Delivered(AsyncDecide<P, X>(table), input.value.records, p)) + [ShutDown]
  {
    var run := AsyncSplitBam(cliCmd, input, addProgramTag, table, faults, openOrder, closeOrder);
    if input.Some? && addProgramTag(cliCmd, input.value.header).Some? {
      var m := FirstUnopenable(faults, openOrder);
      var allOpen := forall p :: p in table.Values ==> Opens(faults, p);
      if m < |openOrder| {
        assert run.error.Some? by {
          AsyncOpenFailure(cliCmd, input, addProgramTag, table, faults, openOrder, closeOrder);
        }
        assert !allOpen by {
          assert openOrder[m] in table.Values;
        }
      } else {
        assert allOpen by {
          forall p | p in table.Values
            ensures Opens(faults, p)
          {
            var i :| 0 <= i < |openOrder| && openOrder[i] == p;
          }
        }
        AsyncSuccessOpened(cliCmd, input, addProgramTag, table, faults, openOrder, closeOrder);
        if run.error.None? {
          AsyncSuccessFiles(cliCmd, input, addProgramTag, table, faults, openOrder, closeOrder);
        }
      }
    }
  }

  /** Once every writer is made, the run succeeds exactly when no record write fails, the
      stream ends cleanly and every shutdown succeeds. */
  lemma AsyncSuccessOpened<P(!new), H, X>(cliCmd: string, input: Option<Input<H, Record<X>>>,
                                          addProgramTag: (string, Header<H>) -> Option<Header<H>>,
                                          table: map<seq<uint16>, P>, faults: Faults<P>,
                                          openOrder: seq<P>, closeOrder: seq<P>)
    requires Enumerates(openOrder, table.Values)
    requires Enumerates(closeOrder, table.Values)
    requires input.Some? && addProgramTag(cliCmd, input.value.header).Some?
    requires FirstUnopenable(faults, openOrder) == |openOrder|
    ensures var run := AsyncSplitBam(cliCmd, input, addProgramTag, table, faults, openOrder, closeOrder);
      run.error.None? <==>
        && (forall i :: 0 <= i < |input.value.records| ==>
              !WriteFails(AsyncDecide<P, X>(table), table.Values, faults.writeFailsAt, input.value.records[i], i))
        && input.value.end == Eof
        && (forall p :: p in table.Values ==> p !in faults.shutdownFails)
  {
    var run := AsyncSplitBam(cliCmd, input, addProgramTag, table, faults, openOrder, closeOrder);
    var recs := input.value.records;
    var decide := AsyncDecide<P, X>(table);
    var k := FirstWriteFailure(decide, table.Values, faults.writeFailsAt, recs, 0);
    var j := FirstFailedShutdown(faults, closeOrder);
    assert run.error.None? <==> k == |recs| && input.value.end == Eof && j == |closeOrder| by {
      AsyncAfterOpening(cliCmd, input, addProgramTag, table, faults, openOrder, closeOrder);
    }
    if j < |closeOrder| {
      assert closeOrder[j] in table.Values;
    } else {
      forall p | p in table.Values
        ensures p !in faults.shutdownFails
      {
        var i :| 0 <= i < |closeOrder| && closeOrder[i] == p;
      }
    }
  }

  /** A run that succeeds leaves in every file the header, the reference sequences, all the
      records routed to it, in input order, and one shutdown. */
  lemma AsyncSuccessFiles<P(!new), H, X>(cliCmd: string, input: Option<Input<H, Record<X>>>,
                                         addProgramTag: (string, Header<H>) -> Option<Header<H>>,
                                         table: map<seq<uint16>, P>, faults: Faults<P>,
                                         openOrder: seq<P>, closeOrder: seq<P>)
    requires Enumerates(openOrder, table.Values)
    requires Enumerates(closeOrder, table.Values)
    requires input.Some? && addProgramTag(cliCmd, input.value.header).Some?
    requires FirstUnopenable(faults, openOrder) == |openOrder|
    requires AsyncSplitBam(cliCmd, input, addProgramTag, table, faults, openOrder, closeOrder).error.None?
    ensures var run := AsyncSplitBam(cliCmd, input, addProgramTag, table, faults, openOrder, closeOrder);
      forall p :: p in run.files ==>
        run.files[p] == OpenedLog(addProgramTag(cliCmd, input.value.header).value)
                        + Written(Delivered(AsyncDecide<P, X>(table), input.value.records, p)) + [ShutDown]
  {
    var run := AsyncSplitBam(cliCmd, input, addProgramTag, table, faults, openOrder, closeOrder);
    var recs := input.value.records;
    var decide := AsyncDecide<P, X>(table);
    var k := FirstWriteFailure(decide, table.Values, faults.writeFailsAt, recs, 0);
    var j := FirstFailedShutdown(faults, closeOrder);
    var done := k == |recs| && input.value.end == Eof;
    AsyncAfterOpening(cliCmd, input, addProgramTag, table, faults, openOrder, closeOrder);
    assert recs[..k] == recs;
    assert closeOrder[..j] == closeOrder;
    forall p | p in run.files
      ensures ShutDownAtEnd(p, done, faults, closeOrder)
    {
    }
  }

  /** What a writer's file can look like at any point of a run: the header, then the
      reference sequences, then records, and at most one shutdown, as the last event. */
  ghost predicate WriterLog<H, R>(log: Log<H, R>, h: H) {
    && |log| >= 2
    && log[0] == WroteHeader(h)
    && log[1] == WroteRefSeqs(h)
    && (forall i :: 2 <= i < |log| ==> log[i].WroteRecord? || (log[i].ShutDown? && i == |log| - 1))
  }

  lemma OpenedThenWritten<H, R>(h: H, xs: seq<R>, shut: bool)
    ensures WriterLog<H, R>(OpenedLog(h) + Written(xs) + (if shut then [ShutDown] else []), h)
  {
    WrittenShape<H, R>(xs);
  }

  /** Whatever the outcome, every file holds the edited header before anything else, and the
      header is written once: a record never precedes it and a second header never follows. */
  lemma AsyncHeaderFirst<P(!new), H, X>(cliCmd: string, input: Option<Input<H, Record<X>>>,
                                        addProgramTag: (string, Header<H>) -> Option<Header<H>>,
                                        table: map<seq<uint16>, P>, faults: Faults<P>,
                                        openOrder: seq<P>, closeOrder: seq<P>)
    requires Enumerates(openOrder, table.Values)
    requires Enumerates(closeOrder, table.Values)
    ensures var run := AsyncSplitBam(cliCmd, input, addProgramTag, table, faults, openOrder, closeOrder);
      run.files != map[] ==>
        && input.Some? && addProgramTag(cliCmd, input.value.header).Some?
        && forall p :: p in run.files ==>
             WriterLog(run.files[p], addProgramTag(cliCmd, input.value.header).value)
  {
    var run := AsyncSplitBam(cliCmd, input, addProgramTag, table, faults, openOrder, closeOrder);
    if input.Some? && addProgramTag(cliCmd, input.value.header).Some? {
      var h := addProgramTag(cliCmd, input.value.header).value;
      if FirstUnopenable(faults, openOrder) < |openOrder| {
        AsyncOpenFailure(cliCmd, input, addProgramTag, table, faults, openOrder, closeOrder);
        forall p | p in run.files
          ensures WriterLog(run.files[p], h)
        {
          OpenedThenWritten<Header<H>, Record<X>>(h, [], false);
          assert OpenedLog<Header<H>, Record<X>>(h) + Written([]) + [] == OpenedLog(h);
        }
      } else {
        AsyncAfterOpening(cliCmd, input, addProgramTag, table, faults, openOrder, closeOrder);
        var recs := input.value.records;
        var decide := AsyncDecide<P, X>(table);
        var k := FirstWriteFailure(decide, table.Values, faults.writeFailsAt, recs, 0);
        var done := k == |recs| && input.value.end == Eof;
        forall p | p in run.files
          ensures WriterLog(run.files[p], h)
        {
          OpenedThenWritten(h, Delivered(decide, recs[..k], p), ShutDownAtEnd(p, done, faults, closeOrder));
        }
      }
    }
  }

  /** The run depends on the input header only through the edited header: two headers that
      `add_program_tag` edits alike give the same files, the same debug messages and the same
      outcome, whatever their program records, so the lima check adds only the warning. An
      edit that keeps the existing program records never edits a header with `lima` and one
      without alike, so this does not say that removing `lima` leaves the files unchanged. */
  lemma LimaOnlyWarns<P(!new), H, X>(cliCmd: string, header1: Header<H>, header2: Header<H>,
                                     records: seq<Record<X>>, end: End,
                                     addProgramTag: (string, Header<H>) -> Option<Header<H>>,
                                     table: map<seq<uint16>, P>, faults: Faults<P>,
                                     openOrder: seq<P>, closeOrder: seq<P>)
    requires Enumerates(openOrder, table.Values)
    requires Enumerates(closeOrder, table.Values)
    requires addProgramTag(cliCmd, header1) == addProgramTag(cliCmd, header2)
    ensures var run1 := AsyncSplitBam(cliCmd, Some(Input(header1, records, end)), addProgramTag, table, faults, openOrder, closeOrder);
      var run2 := AsyncSplitBam(cliCmd, Some(Input(header2, records, end)), addProgramTag, table, faults, openOrder, closeOrder);
      && run1.files == run2.files
      && run1.oddLengths == run2.oddLengths
      && run1.error == run2.error
      && (run1.limaWarning <==> Lima !in header1.programs)
  {
  }

  /** The synchronous `split_bam` of the older library. `input` is what opening the file
      and reading its header yields (`None` when either fails); the header is used as read.
      There is no lima check and no shutdown. */
  function LegacySplitBam<P(!new), H, X>(input: Option<Input<H, LegacyRecord<X>>>,
                                        table: map<(uint16, uint16), P>, faults: Faults<P>,
                                        order: seq<P>): (run: Run<P, H, LegacyRecord<X>>)
    requires Enumerates(order, table.Values)
    ensures !run.limaWarning
    ensures input.None? ==> run.error == Some(ReaderFailed) && run.files == map[]
  {
    if input.None? then Run(map[], false, [], Some(ReaderFailed))
    else
      var inp := input.value;
      var writers := LegacyMakeWriters(faults, inp.header, table.Values, order).value;
      LegacyRead(LegacyDecideFor(table), inp.records, inp.end, faults, writers)
  }

  /** The record loop of the legacy splitter: a failed write or a read error is the error of
      the run, and nothing is shut down either way. */
  function LegacyRead<P, H, R>(decide: R -> Decision<P>, recs: seq<R>, end: End, faults: Faults<P>,
                               writers: map<P, Log<Header<H>, R>>): (run: Run<P, H, R>)
    ensures run.files.Keys == writers.Keys
    ensures !run.limaWarning
  {
    var routed := Route(decide, faults.writeFailsAt, writers, recs, 0);
    if routed.error.Some? then Run(routed.files, false, routed.oddLengths, routed.error)
    else if end == ReadError then Run(routed.files, false, routed.oddLengths, Some(ReadFailed(|recs|)))
    else Run(routed.files, false, routed.oddLengths, None)
  }

  /** Each writer gains exactly the records routed to it, in input order, up to the first
      failing write. */
  lemma LegacyReadFiles<P, H, R>(decide: R -> Decision<P>, recs: seq<R>, end: End, faults: Faults<P>,
                                 writers: map<P, Log<Header<H>, R>>)
    ensures var run := LegacyRead(decide, recs, end, faults, writers);
      var k := FirstWriteFailure(decide, writers.Keys, faults.writeFailsAt, recs, 0);
      forall p :: p in run.files ==> run.files[p] == writers[p] + Written(Delivered(decide, recs[..k], p))
  {
    var routed := Route(decide, faults.writeFailsAt, writers, recs, 0);
    assert LegacyRead(decide, recs, end, faults, writers).files == routed.files;
    RouteFiles(decide, faults.writeFailsAt, writers, recs, 0);
  }

  /** How the legacy run is read off the record loop's outcome. */
  lemma LegacyReadRouted<P, H, R>(decide: R -> Decision<P>, recs: seq<R>, end: End, faults: Faults<P>,
                                  writers: map<P, Log<Header<H>, R>>)
    ensures var run := LegacyRead(decide, recs, end, faults, writers);
      var routed := Route(decide, faults.writeFailsAt, writers, recs, 0);
      && run.oddLengths == routed.oddLengths
      && (routed.error.Some? ==> run.error == routed.error)
      && (routed.error.None? ==> (run.error.None? <==> end == Eof))
      && (routed.error.None? && end == ReadError ==> run.error == Some(ReadFailed(|recs|)))
  {
  }

  /** The loop ends at the first failing write, or else at the end of the stream; the run
      fails only on that write or on a read error, and the debug messages are those of the
      records looked at. */
  lemma LegacyReadResult<P, H, R>(decide: R -> Decision<P>, recs: seq<R>, end: End, faults: Faults<P>,
                                  writers: map<P, Log<Header<H>, R>>)
    ensures var run := LegacyRead(decide, recs, end, faults, writers);
      var k := FirstWriteFailure(decide, writers.Keys, faults.writeFailsAt, recs, 0);
      && run.oddLengths == OddLengths(decide, recs[..k])
      && (k < |recs| ==> run.error == Some(RecordWriteFailed(decide(recs[k]).path, k)))
      && (k == |recs| ==> (run.error.None? <==> end == Eof))
      && (k == |recs| && end == ReadError ==> run.error == Some(ReadFailed(|recs|)))
  {
    LegacyReadRouted(decide, recs, end, faults, writers);
    RouteOddLengths(decide, faults.writeFailsAt, writers, recs, 0);
    RouteStopsAtFailure(decide, faults.writeFailsAt, writers, recs);
    RouteRunsThrough(decide, faults.writeFailsAt, writers, recs);
  }

  /** The legacy splitter writes to exactly the paths whose writer could be made; a path whose
      writer failed gets no file, and the records routed to it vanish without an error. Each
      file holds the header as read, then exactly the records routed to it, in input order, up
      to the first failing write, and is never shut down. The run fails only on a record
      write or a read error. */
  lemma LegacyOutcome<P(!new), H, X>(input: Option<Input<H, LegacyRecord<X>>>,
                                     table: map<(uint16, uint16), P>, faults: Faults<P>, order: seq<P>)
    requires Enumerates(order, table.Values)
    requires input.Some?
    ensures var run := LegacySplitBam(input, table, faults, order);
      var recs := input.value.records;
      var decide := LegacyDecideFor<P, X>(table);
      var made := set p | p in table.Values && LegacyOpens(faults, p);
      var k := FirstWriteFailure(decide, made, faults.writeFailsAt, recs, 0);
      && run.files.Keys == made
      && (forall p :: p in run.files ==>
            run.files[p] == [WroteHeader(input.value.header)] + Written(Delivered(decide, recs[..k], p)))
      && run.oddLengths == OddLengths(decide, recs[..k])
      && (k < |recs| ==> run.error == Some(RecordWriteFailed(decide(recs[k]).path, k)))
      && (k == |recs| ==> (run.error.None? <==> input.value.end == Eof))
      && (k == |recs| && input.value.end == ReadError ==> run.error == Some(ReadFailed(|recs|)))
  {
    var inp := input.value;
    var writers := LegacyMakeWriters<P, Header<H>, LegacyRecord<X>>(faults, inp.header, table.Values, order).value;
    assert writers.Keys == set p | p in table.Values && LegacyOpens(faults, p);
    LegacyReadFiles(LegacyDecideFor<P, X>(table), inp.records, inp.end, faults, writers);
    LegacyReadResult(LegacyDecideFor<P, X>(table), inp.records, inp.end, faults, writers);
  }
}

=== FILE: records.dfy ===
/** What the splitter sees of a BAM record: its `bc` auxiliary field. The record itself is an
    opaque value; only the routing decision taken from the field is modelled. */
module Records {
  import opened Wrappers

  newtype uint16 = x: int | 0 <= x < 0x1_0000

  /** The `bc` field as the asynchronous reader returns it. Fields are decoded lazily, so the
      lookup itself can fail, and so can every element of an array. */
  datatype BcField =
    | Missing
    | Undecodable
    | UInt16Array(elements: seq<Option<uint16>>)
    | OtherValue

  datatype Record<X> = Record(bc: BcField, body: X)

  /** The `bc` field as the older, eagerly decoding reader returns it. */
  datatype LegacyBcField =
    | LegacyMissing
    | LegacyUInt16Array(values: seq<uint16>)
    | LegacyOtherValue

  datatype LegacyRecord<X> = LegacyRecord(bc: LegacyBcField, body: X)

  /** What happens to one record: dropped silently, dropped with a debug message naming the
      element count, or written to the writer of a path. */
  datatype Decision<P> = Drop | DropOddLength(count: nat) | RouteTo(path: P)

  /** The elements that decoded, in stored order; the ones that failed are left out. */
  function Decoded(elements: seq<Option<uint16>>): (vs: seq<uint16>)
    ensures |vs| <= |elements|
    ensures forall v :: v in vs <==> Some(v) in elements
  {
    if elements == [] then []
    else
      var rest := Decoded(elements[1..]);
      assert forall v :: Some(v) in elements <==> elements[0] == Some(v) || Some(v) in elements[1..];
      match elements[0]
      case Some(v) => [v] + rest
      case None => rest
  }

  /** One element: kept when it decoded, left out when it failed. */
  lemma DecodedOne(e: Option<uint16>)
    ensures Decoded([e]) == if e.Some? then [e.value] else []
  {
    assert [e][1..] == [];
  }

  /** Decoding works element by element: the decoded elements of two arrays laid end to end
      are those of the first followed by those of the second. Together with `DecodedOne`
      this fixes the order and the multiplicity of the elements kept. */
  lemma {:induction false} DecodedAppend(a: seq<Option<uint16>>, b: seq<Option<uint16>>)
    ensures Decoded(a + b) == Decoded(a) + Decoded(b)
  {
    if a == [] {
      assert a + b == b;
    } else {
      var head := if a[0].Some? then [a[0].value] else [];
      calc {
        Decoded(a + b);
      == { assert (a + b)[1..] == a[1..] + b; assert (a + b)[0] == a[0]; }
        head + Decoded(a[1..] + b);
      == { DecodedAppend(a[1..], b); }
        head + (Decoded(a[1..]) + Decoded(b));
      ==
        (head + Decoded(a[1..])) + Decoded(b);
      ==
        Decoded(a) + Decoded(b);
      }
    }
  }

  /** Every element wrapped as decoded: the array the legacy reader would have returned. */
  function AllDecoded(vs: seq<uint16>): seq<Option<uint16>> {
    seq(|vs|, i requires 0 <= i < |vs| => Some(vs[i]))
  }

  lemma {:induction false} DecodedAllDecoded(vs: seq<uint16>)
    ensures Decoded(AllDecoded(vs)) == vs
  {
    if vs != [] {
      assert AllDecoded(vs)[1..] == AllDecoded(vs[1..]);
      DecodedAllDecoded(vs[1..]);
    }
  }

  /** Only elements that decoded count: an array whose failed elements are removed is routed
      exactly like the original. */
  lemma {:induction false} DecodedDropsFailures(elements: seq<Option<uint16>>)
    ensures Decoded(AllDecoded(Decoded(elements))) == Decoded(elements)
  {
    DecodedAllDecoded(Decoded(elements));
  }

  /** The routing decision of the asynchronous splitter: only an array of 16-bit values is
      looked at; its decoded elements must number exactly two and are looked up in stored
      order, with no reordering. */
  function Decide<P>(table: map<seq<uint16>, P>, bc: BcField): (d: Decision<P>)
    ensures d.RouteTo? <==>
      bc.UInt16Array? && |Decoded(bc.elements)| == 2 && Decoded(bc.elements) in table
    ensures d.RouteTo? ==> d.path == table[Decoded(bc.elements)]
    ensures d.DropOddLength? <==> bc.UInt16Array? && |Decoded(bc.elements)| != 2
    ensures d.DropOddLength? ==> d.count == |Decoded(bc.elements)|
  {
    match bc
    case UInt16Array(elements) =>
      var pair := Decoded(elements);
      if |pair| != 2 then DropOddLength(|pair|)
      else if pair in table then RouteTo(table[pair])
      else Drop
    case _ => Drop
  }

  /** Array elements that fail to decode are skipped before the length is checked. */
  lemma DecideSkipsFailedElements<P>(table: map<seq<uint16>, P>, elements: seq<Option<uint16>>)
    ensures Decide(table, UInt16Array(elements)) == Decide(table, UInt16Array(AllDecoded(Decoded(elements))))
  {
    DecodedDropsFailures(elements);
  }

  /** So a three-element array with one failed element is routed by its other two, while a
      two-element array with one failed element is dropped as having length one. */
  lemma DecideFailedElementExamples<P>(table: map<seq<uint16>, P>, a: uint16, b: uint16)
    requires [a, b] in table
    ensures Decide(table, UInt16Array([Some(a), None, Some(b)])) == RouteTo(table[[a, b]])
    ensures Decide(table, UInt16Array([Some(a), None])) == DropOddLength(1)
  {
    var none: Option<uint16> := None;
    assert [Some(b)][1..] == [] && [none][1..] == [];
    assert Decoded([Some(b)]) == [b];
    assert Decoded([none]) == [];
    assert [None, Some(b)][1..] == [Some(b)];
    assert Decoded([None, Some(b)]) == [b];
    assert [Some(a), None, Some(b)][1..] == [None, Some(b)];
    assert Decoded([Some(a), None, Some(b)]) == [a, b];
    assert [Some(a), None][1..] == [None];
    assert Decoded([Some(a), None]) == [a];
  }

  /** The pair is looked up as stored: its reverse is not consulted. */
  lemma DecideUsesStoredOrder<P>(table: map<seq<uint16>, P>, a: uint16, b: uint16)
    requires [a, b] in table && [b, a] !in table
    ensures Decide(table, UInt16Array([Some(b), Some(a)])) == Drop
  {
    assert [Some(a)][1..] == [];
    assert Decoded([Some(a)]) == [a];
    assert [Some(b), Some(a)][1..] == [Some(a)];
    assert Decoded([Some(b), Some(a)]) == [b, a];
  }

  /** The routing decision of the legacy splitter, whose table is keyed by a tuple. */
  function LegacyDecide<P>(table: map<(uint16, uint16), P>, bc: LegacyBcField): (d: Decision<P>)
    ensures d.RouteTo? <==>
      bc.LegacyUInt16Array? && |bc.values| == 2 && (bc.values[0], bc.values[1]) in table
    ensures d.RouteTo? ==> d.path == table[(bc.values[0], bc.values[1])]
    ensures d.DropOddLength? <==> bc.LegacyUInt16Array? && |bc.values| != 2
    ensures d.DropOddLength? ==> d.count == |bc.values|
  {
    match bc
    case LegacyUInt16Array(values) =>
      if |values| != 2 then DropOddLength(|values|)
      else if (values[0], values[1]) in table then RouteTo(table[(values[0], values[1])])
      else Drop
    case _ => Drop
  }

  /** A tuple-keyed table as the vector-keyed table the asynchronous splitter takes. */
  function AsVectorTable<P>(table: map<(uint16, uint16), P>): (t: map<seq<uint16>, P>)
    ensures forall a, b :: [a, b] in t <==> (a, b) in table
    ensures forall a, b :: (a, b) in table ==> t[[a, b]] == table[(a, b)]
    ensures forall k :: k in t ==> |k| == 2
  {
    map k | k in table :: [k.0, k.1] := table[k]
  }

  /** A legacy field as the lazily decoding reader would see it, every element decoded. */
  function AsLazyField(bc: LegacyBcField): BcField {
    match bc
    case LegacyMissing => Missing
    case LegacyUInt16Array(values) => UInt16Array(AllDecoded(values))
    case LegacyOtherValue => OtherValue
  }

  /** On well-decoded records the two splitters take the same decision. */
  lemma LegacyDecideAgrees<P>(table: map<(uint16, uint16), P>, bc: LegacyBcField)
    ensures LegacyDecide(table, bc) == Decide(AsVectorTable(table), AsLazyField(bc))
  {
    if bc.LegacyUInt16Array? {
      DecodedAllDecoded(bc.values);
      var vs := bc.values;
      if |vs| == 2 {
        assert vs == [vs[0], vs[1]];
      }
    }
  }
}

=== FILE: router.dfy ===
/** The record loop shared by both splitters: a fold over the input records that sends each
    one to at most one writer. What a record's `bc` field decides is a parameter, so the same
    loop serves the asynchronous splitter (vector-keyed table, lazily decoded fields) and the
    legacy one (tuple-keyed table). */
module Router {
  import opened Wrappers
  import opened Records
  import opened Writers

  /** The outcome of the loop: each writer's log, the element counts reported by the debug
      message about a `bc` array of the wrong length, and the error that ended the loop. */
  datatype Routed<P, H, R> = Routed(files: map<P, Log<H, R>>, oddLengths: seq<nat>, error: Option<Error<P>>)

  /** The loop over `xs`, whose first record is at position `at` of the input. A record is
      written only when its decision names a path that has a writer; a failed write ends the
      loop at once with that path's error, and nothing after it is looked at. */
  function Route<P, H, R>(decide: R -> Decision<P>, writeFailsAt: set<nat>, files: map<P, Log<H, R>>,
                          xs: seq<R>, at: nat): (out: Routed<P, H, R>)
    ensures out.files.Keys == files.Keys
    decreases |xs|
  {
    if xs == [] then Routed(files, [], None)
    else
      match decide(xs[0])
      case Drop => Route(decide, writeFailsAt, files, xs[1..], at + 1)
      case DropOddLength(n) =>
        var rest := Route(decide, writeFailsAt, files, xs[1..], at + 1);
        rest.(oddLengths := [n] + rest.oddLengths)
      case RouteTo(p) =>
        if p !in files then Route(decide, writeFailsAt, files, xs[1..], at + 1)
        else if at in writeFailsAt then Routed(files, [], Some(RecordWriteFailed(p, at)))
        else Route(decide, writeFailsAt, files[p := files[p] + [WroteRecord(xs[0])]], xs[1..], at + 1)
  }

  /** The record `x` is sent to `p`. */
  predicate Sends<P(==), R>(decide: R -> Decision<P>, x: R, p: P) {
    decide(x).RouteTo? && decide(x).path == p
  }

  /** The records of `xs` sent to `p`, in input order. */
  function Delivered<P(==), R>(decide: R -> Decision<P>, xs: seq<R>, p: P): seq<R> {
    if xs == [] then []
    else Delivered(decide, xs[..|xs| - 1], p) + (if Sends(decide, xs[|xs| - 1], p) then [xs[|xs| - 1]] else [])
  }

  /** The element counts of the arrays of the wrong length in `xs`, in input order. */
  function OddLengths<P, R>(decide: R -> Decision<P>, xs: seq<R>): seq<nat> {
    if xs == [] then []
    else (if decide(xs[0]).DropOddLength? then [decide(xs[0]).count] else []) + OddLengths(decide, xs[1..])
  }

  /** The log events of writing `xs`, one record after another. */
  function Written<H, R>(xs: seq<R>): Log<H, R> {
    if xs == [] then [] else [WroteRecord(xs[0])] + Written(xs[1..])
  }

  /** The record `x`, at position `at` of the input, goes to a writer and its write fails. */
  predicate WriteFails<P, R>(decide: R -> Decision<P>, keys: set<P>, writeFailsAt: set<nat>, x: R, at: nat) {
    decide(x).RouteTo? && decide(x).path in keys && at in writeFailsAt
  }

  /** The position in `xs` of the first record whose write fails, or `|xs|`. */
  function FirstWriteFailure<P, R>(decide: R -> Decision<P>, keys: set<P>, writeFailsAt: set<nat>,
                                   xs: seq<R>, at: nat): (k: nat)
    ensures k <= |xs|
    ensures forall j :: 0 <= j < k ==> !WriteFails(decide, keys, writeFailsAt, xs[j], at + j)
    ensures k < |xs| ==> WriteFails(decide, keys, writeFailsAt, xs[k], at + k)
    decreases |xs|
  {
    if xs == [] || WriteFails(decide, keys, writeFailsAt, xs[0], at) then 0
    else 1 + FirstWriteFailure(decide, keys, writeFailsAt, xs[1..], at + 1)
  }

  lemma WrittenCons<H, R>(x: R, xs: seq<R>)
    ensures Written<H, R>([x] + xs) == [WroteRecord(x)] + Written(xs)
  {
    assert ([x] + xs)[1..] == xs;
  }

  lemma {:induction false} WrittenShape<H, R>(xs: seq<R>)
    ensures |Written<H, R>(xs)| == |xs|
    ensures forall i :: 0 <= i < |xs| ==> Written<H, R>(xs)[i] == WroteRecord(xs[i])
  {
    if xs != [] {
      WrittenShape<H, R>(xs[1..]);
    }
  }

  /** Taking the first record off the front of the input. */
  lemma {:induction false} DeliveredCons<P, R>(decide: R -> Decision<P>, x: R, xs: seq<R>, p: P)
    ensures Delivered(decide, [x] + xs, p) == (if Sends(decide, x, p) then [x] else []) + Delivered(decide, xs, p)
    decreases |xs|
  {
    var s := [x] + xs;
    if xs != [] {
      assert s[..|s| - 1] == [x] + xs[..|xs| - 1];
      assert s[|s| - 1] == xs[|xs| - 1];
      DeliveredCons(decide, x, xs[..|xs| - 1], p);
    } else {
      assert s[..|s| - 1] == [];
    }
  }

  /** The writer that the record `x` is written to, if any, as the loop sees it. */
  function Next<P, H, R>(decide: R -> Decision<P>, files: map<P, Log<H, R>>, x: R): (files': map<P, Log<H, R>>)
    ensures files'.Keys == files.Keys
  {
    var d := decide(x);
    if d.RouteTo? && d.path in files then files[d.path := files[d.path] + [WroteRecord(x)]] else files
  }

  /** One turn of the loop when the first record's write, if any, succeeds. */
  lemma RouteStep<P, H, R>(decide: R -> Decision<P>, writeFailsAt: set<nat>,
                           files: map<P, Log<H, R>>, xs: seq<R>, at: nat)
    requires xs != [] && !WriteFails(decide, files.Keys, writeFailsAt, xs[0], at)
    ensures var out := Route(decide, writeFailsAt, files, xs, at);
      var rest := Route(decide, writeFailsAt, Next(decide, files, xs[0]), xs[1..], at + 1);
      && out.files == rest.files
      && out.error == rest.error
      && out.oddLengths == (if decide(xs[0]).DropOddLength? then [decide(xs[0]).count] else []) + rest.oddLengths
      && FirstWriteFailure(decide, files.Keys, writeFailsAt, xs, at)
         == 1 + FirstWriteFailure(decide, files.Keys, writeFailsAt, xs[1..], at + 1)
  {
  }

  /** Up to the first failing write, every writer `p` has gained exactly the records sent to
      `p`, in input order, after what it held before. */
  lemma {:induction false} RouteFiles<P, H, R>(decide: R -> Decision<P>, writeFailsAt: set<nat>,
                                               files: map<P, Log<H, R>>, xs: seq<R>, at: nat)
    ensures var out := Route(decide, writeFailsAt, files, xs, at);
      var k := FirstWriteFailure(decide, files.Keys, writeFailsAt, xs, at);
      forall p :: p in files ==> out.files[p] == files[p] + Written(Delivered(decide, xs[..k], p))
    decreases |xs|
  {
    var k := FirstWriteFailure(decide, files.Keys, writeFailsAt, xs, at);
    if k == 0 {
      assert xs[..k] == [];
    } else {
      var tail := xs[1..][..k - 1];
      assert xs[..k] == [xs[0]] + tail;
      var files' := Next(decide, files, xs[0]);
      var out := Route(decide, writeFailsAt, files, xs, at);
      assert out.files == Route(decide, writeFailsAt, files', xs[1..], at + 1).files
             && FirstWriteFailure(decide, files'.Keys, writeFailsAt, xs[1..], at + 1) == k - 1 by {
        RouteStep(decide, writeFailsAt, files, xs, at);
      }
      assert forall p :: p in files' ==> out.files[p] == files'[p] + Written(Delivered(decide, tail, p)) by {
        RouteFiles(decide, writeFailsAt, files', xs[1..], at + 1);
      }
      forall p | p in files
        ensures out.files[p] == files[p] + Written(Delivered(decide, xs[..k], p))
      {
        WrittenAfterStep(decide, xs[0], tail, p, files[p], files'[p], out.files[p]);
      }
    }
  }

  /** One record more at the front: the writer of `p` first takes `x` if it is sent to `p`,
      then the records of `tail` sent to `p`. */
  lemma WrittenAfterStep<P, H, R>(decide: R -> Decision<P>, x: R, tail: seq<R>, p: P,
                                  before: Log<H, R>, mid: Log<H, R>, after: Log<H, R>)
    requires mid == if Sends(decide, x, p) then before + [WroteRecord(x)] else before
    requires after == mid + Written(Delivered(decide, tail, p))
    ensures after == before + Written(Delivered(decide, [x] + tail, p))
  {
    var here := Delivered(decide, tail, p);
    if Sends(decide, x, p) {
      calc {
        after;
        before + [WroteRecord(x)] + Written(here);
        before + ([WroteRecord(x)] + Written(here));
        { WrittenCons<H, R>(x, here); }
        before + Written([x] + here);
        { DeliveredCons(decide, x, tail, p); }
        before + Written(Delivered(decide, [x] + tail, p));
      }
    } else {
      assert Delivered(decide, [x] + tail, p) == here by {
        DeliveredCons(decide, x, tail, p);
      }
    }
  }

  /** The debug messages name the lengths of the odd arrays met before the first failing
      write, in input order. */
  lemma {:induction false} RouteOddLengths<P, H, R>(decide: R -> Decision<P>, writeFailsAt: set<nat>,
                                                    files: map<P, Log<H, R>>, xs: seq<R>, at: nat)
    ensures var k := FirstWriteFailure(decide, files.Keys, writeFailsAt, xs, at);
      Route(decide, writeFailsAt, files, xs, at).oddLengths == OddLengths(decide, xs[..k])
    decreases |xs|
  {
    var k := FirstWriteFailure(decide, files.Keys, writeFailsAt, xs, at);
    if k == 0 {
      assert xs[..k] == [];
    } else {
      assert xs[..k][1..] == xs[1..][..k - 1];
      RouteStep(decide, writeFailsAt, files, xs, at);
      RouteOddLengths(decide, writeFailsAt, Next(decide, files, xs[0]), xs[1..], at + 1);
    }
  }

  /** The loop succeeds exactly when no write fails, and otherwise reports the path and the
      input position of the first write that fails. */
  lemma {:induction false} RouteError<P, H, R>(decide: R -> Decision<P>, writeFailsAt: set<nat>,
                                               files: map<P, Log<H, R>>, xs: seq<R>, at: nat)
    ensures var out := Route(decide, writeFailsAt, files, xs, at);
      var k := FirstWriteFailure(decide, files.Keys, writeFailsAt, xs, at);
      && (out.error.None? <==> k == |xs|)
      && (k < |xs| ==> out.error == Some(RecordWriteFailed(decide(xs[k]).path, at + k)))
    decreases |xs|
  {
    var k := FirstWriteFailure(decide, files.Keys, writeFailsAt, xs, at);
    if k > 0 {
      RouteStep(decide, writeFailsAt, files, xs, at);
      RouteError(decide, writeFailsAt, Next(decide, files, xs[0]), xs[1..], at + 1);
      if k < |xs| {
        assert xs[1..][k - 1] == xs[k];
      }
    }
  }

  /** From the start of the input: a failing write is the error of the loop. */
  lemma RouteStopsAtFailure<P, H, R>(decide: R -> Decision<P>, writeFailsAt: set<nat>,
                                     files: map<P, Log<H, R>>, xs: seq<R>)
    ensures var k := FirstWriteFailure(decide, files.Keys, writeFailsAt, xs, 0);
      k < |xs| ==> Route(decide, writeFailsAt, files, xs, 0).error == Some(RecordWriteFailed(decide(xs[k]).path, k))
  {
    RouteError(decide, writeFailsAt, files, xs, 0);
  }

  /** From the start of the input: without a failing write the loop has no error. */
  lemma RouteRunsThrough<P, H, R>(decide: R -> Decision<P>, writeFailsAt: set<nat>,
                                  files: map<P, Log<H, R>>, xs: seq<R>)
    ensures FirstWriteFailure(decide, files.Keys, writeFailsAt, xs, 0) == |xs|
            ==> Route(decide, writeFailsAt, files, xs, 0).error.None?
  {
    RouteError(decide, writeFailsAt, files, xs, 0);
  }

  /** The positions in `xs` of the records sent to `p`, ascending. */
  function RoutedIndices<P(==), R>(decide: R -> Decision<P>, xs: seq<R>, p: P): (ix: seq<nat>)
    ensures forall n :: 0 <= n < |ix| ==> ix[n] < |xs| && Sends(decide, xs[ix[n]], p)
    ensures forall i :: 0 <= i < |xs| && Sends(decide, xs[i], p) ==> i in ix
    ensures forall n, m :: 0 <= n < m < |ix| ==> ix[n] < ix[m]
    decreases |xs|
  {
    if xs == [] then []
    else
      var init := xs[..|xs| - 1];
      var last := |xs| - 1;
      var rest := RoutedIndices(decide, init, p);
      assert forall n :: 0 <= n < |rest| ==> xs[rest[n]] == init[rest[n]];
      assert forall i :: 0 <= i < last ==> xs[i] == init[i];
      rest + (if Sends(decide, xs[last], p) then [last] else [])
  }

  /** Order preservation: what `p` receives is the subsequence of the input at the positions
      of the records sent to `p`, taken in ascending order. */
  lemma {:induction false} DeliveredIsSelection<P, R>(decide: R -> Decision<P>, xs: seq<R>, p: P)
    ensures var ix := RoutedIndices(decide, xs, p);
      && |Delivered(decide, xs, p)| == |ix|
      && forall n :: 0 <= n < |ix| ==> Delivered(decide, xs, p)[n] == xs[ix[n]]
    decreases |xs|
  {
    if xs != [] {
      var init := xs[..|xs| - 1];
      DeliveredIsSelection(decide, init, p);
      var rest := RoutedIndices(decide, init, p);
      assert forall n :: 0 <= n < |rest| ==> xs[rest[n]] == init[rest[n]];
    }
  }

  /** Everything `p` receives was sent to it. */
  lemma DeliveredOnlySent<P, R>(decide: R -> Decision<P>, xs: seq<R>, p: P)
    ensures forall n :: 0 <= n < |Delivered(decide, xs, p)| ==> Sends(decide, Delivered(decide, xs, p)[n], p)
  {
    DeliveredIsSelection(decide, xs, p);
  }

  /** No record reaches two paths. */
  lemma DeliveredDisjoint<P, R>(decide: R -> Decision<P>, xs: seq<R>, p: P, q: P, i: nat)
    requires p != q && i < |xs|
    ensures !(i in RoutedIndices(decide, xs, p) && i in RoutedIndices(decide, xs, q))
  {
    var ip := RoutedIndices(decide, xs, p);
    if i in ip {
      var n :| 0 <= n < |ip| && ip[n] == i;
    }
  }

  /** How many paths of `order` the record `x` is sent to. */
  function TimesSent<P(==), R>(decide: R -> Decision<P>, x: R, order: seq<P>): nat {
    if order == [] then 0 else (if Sends(decide, x, order[0]) then 1 else 0) + TimesSent(decide, x, order[1..])
  }

  /** A record is sent to at most one of a list of distinct paths: to one exactly when its
      decision names one of them. */
  lemma {:induction false} SentOnce<P, R>(decide: R -> Decision<P>, x: R, order: seq<P>)
    requires forall i, j :: 0 <= i < j < |order| ==> order[i] != order[j]
    ensures TimesSent(decide, x, order) == if decide(x).RouteTo? && decide(x).path in order then 1 else 0
  {
    if order != [] {
      SentOnce(decide, x, order[1..]);
      if Sends(decide, x, order[0]) {
        assert order[0] !in order[1..];
      }
    }
  }

  /** How many records of `xs` are sent to a path of `order`. */
  function CountRouted<P(==), R>(decide: R -> Decision<P>, xs: seq<R>, order: seq<P>): nat {
    if xs == [] then 0
    else
      var x := xs[|xs| - 1];
      CountRouted(decide, xs[..|xs| - 1], order) + (if decide(x).RouteTo? && decide(x).path in order then 1 else 0)
  }

  /** The total length of what the paths of `order` receive. */
  function TotalDelivered<P(==), R>(decide: R -> Decision<P>, xs: seq<R>, order: seq<P>): nat {
    if order == [] then 0 else |Delivered(decide, xs, order[0])| + TotalDelivered(decide, xs, order[1..])
  }

  lemma {:induction false} TotalDeliveredSnoc<P, R>(decide: R -> Decision<P>, xs: seq<R>, order: seq<P>)
    requires xs != []
    ensures TotalDelivered(decide, xs, order)
            == TotalDelivered(decide, xs[..|xs| - 1], order) + TimesSent(decide, xs[|xs| - 1], order)
  {
    if order != [] {
      TotalDeliveredSnoc(decide, xs, order[1..]);
    }
  }

  lemma {:induction false} NothingDelivered<P, R>(decide: R -> Decision<P>, order: seq<P>)
    ensures TotalDelivered(decide, [], order) == 0
  {
    if order != [] {
      NothingDelivered(decide, order[1..]);
    }
  }

  /** Partition: across distinct paths, every record sent to one of them is received exactly
      once, so together the outputs hold exactly as many records as were sent to them. */
  lemma {:induction false} DeliveredPartition<P, R>(decide: R -> Decision<P>, xs: seq<R>, order: seq<P>)
    requires forall i, j :: 0 <= i < j < |order| ==> order[i] != order[j]
    ensures TotalDelivered(decide, xs, order) == CountRouted(decide, xs, order)
    decreases |xs|
  {
    if xs == [] {
      NothingDelivered(decide, order);
    } else {
      DeliveredPartition(decide, xs[..|xs| - 1], order);
      TotalDeliveredSnoc(decide, xs, order);
      SentOnce(decide, xs[|xs| - 1], order);
    }
  }
}

=== FILE: scenarios.dfy ===
/** Small worked runs of the asynchronous splitter: records carry their position in the input
    as their body, paths are names, and the opaque part of the header is a number. */
module Scenarios {
  import opened Wrappers
  import opened Records
  import opened Writers
  import opened Router
  import opened Pipeline

  function Pair(a: uint16, b: uint16): seq<uint16> {
    [a, b]
  }

  /** A record whose `bc` field is the two-element array `[a, b]`. */
  function Tagged(a: uint16, b: uint16, body: int): Record<int> {
    Record(UInt16Array([Some(a), Some(b)]), body)
  }

  lemma DecodedPair(a: uint16, b: uint16)
    ensures Decoded([Some(a), Some(b)]) == [a, b]
  {
    assert [Some(a), Some(b)][1..] == [Some(b)];
    assert [Some(b)][1..] == [];
  }

  /** What `p` receives from three records, one record at a time. */
  lemma DeliveredOfThree<P>(decide: Record<int> -> Decision<P>, x: Record<int>, y: Record<int>, z: Record<int>, p: P)
    ensures Delivered(decide, [x, y, z], p)
            == (if Sends(decide, x, p) then [x] else []) + (if Sends(decide, y, p) then [y] else [])
               + (if Sends(decide, z, p) then [z] else [])
  {
    assert [x][..0] == [];
    assert Delivered(decide, [x], p) == (if Sends(decide, x, p) then [x] else []);
    assert [x, y][..1] == [x];
    assert Delivered(decide, [x, y], p) == Delivered(decide, [x], p) + (if Sends(decide, y, p) then [y] else []);
    assert [x, y, z][..2] == [x, y];
  }

  /** Fan-out: each record goes to the file of its pair, in input order. */
  lemma FanOut(table: map<seq<uint16>, string>)
    requires Pair(0, 1) in table && table[Pair(0, 1)] == "A"
    requires Pair(0, 2) in table && table[Pair(0, 2)] == "B"
    ensures var recs := [Tagged(0, 1, 1), Tagged(0, 2, 2), Tagged(0, 1, 3)];
      && Delivered(AsyncDecide(table), recs, "A") == [Tagged(0, 1, 1), Tagged(0, 1, 3)]
      && Delivered(AsyncDecide(table), recs, "B") == [Tagged(0, 2, 2)]
  {
    DecodedPair(0, 1);
    DecodedPair(0, 2);
    DeliveredOfThree(AsyncDecide(table), Tagged(0, 1, 1), Tagged(0, 2, 2), Tagged(0, 1, 3), "A");
    DeliveredOfThree(AsyncDecide(table), Tagged(0, 1, 1), Tagged(0, 2, 2), Tagged(0, 1, 3), "B");
  }

  /** Collapse: two pairs sent to one path fill one file, interleaved in input order; the
      reversed pair reaches it only because the table holds the reversed pair as well. */
  lemma Collapse(table: map<seq<uint16>, string>)
    requires Pair(0, 1) in table && table[Pair(0, 1)] == "A"
    requires Pair(1, 0) in table && table[Pair(1, 0)] == "A"
    ensures var recs := [Tagged(0, 1, 1), Tagged(1, 0, 2), Tagged(0, 1, 3)];
      Delivered(AsyncDecide(table), recs, "A") == recs
  {
    DecodedPair(0, 1);
    DecodedPair(1, 0);
    DeliveredOfThree(AsyncDecide(table), Tagged(0, 1, 1), Tagged(1, 0, 2), Tagged(0, 1, 3), "A");
  }

  /** A pair that is not a key of the table is dropped without a message. */
  lemma DropsUnknownPair(table: map<seq<uint16>, string>)
    requires Pair(0, 1) in table && table[Pair(0, 1)] == "A"
    requires Pair(9, 9) !in table
    ensures var recs := [Tagged(0, 1, 1), Tagged(9, 9, 2), Tagged(0, 1, 3)];
      && Delivered(AsyncDecide(table), recs, "A") == [Tagged(0, 1, 1), Tagged(0, 1, 3)]
      && OddLengths(AsyncDecide(table), recs) == []
  {
    var decide := AsyncDecide<string, int>(table);
    DecodedPair(0, 1);
    DecodedPair(9, 9);
    DeliveredOfThree(decide, Tagged(0, 1, 1), Tagged(9, 9, 2), Tagged(0, 1, 3), "A");
    OddLengthsOfThree(decide, Tagged(0, 1, 1), Tagged(9, 9, 2), Tagged(0, 1, 3));
  }

  /** An array of three elements is dropped, and its length is reported. */
  lemma DropsOddLength(table: map<seq<uint16>, string>)
    requires Pair(0, 1) in table && table[Pair(0, 1)] == "A"
    ensures var odd := Record(UInt16Array([Some(0), Some(1), Some(2)]), 2);
      var recs := [Tagged(0, 1, 1), odd, Tagged(0, 1, 3)];
      && Delivered(AsyncDecide(table), recs, "A") == [Tagged(0, 1, 1), Tagged(0, 1, 3)]
      && OddLengths(AsyncDecide(table), recs) == [3]
  {
    var odd := Record(UInt16Array([Some(0), Some(1), Some(2)]), 2);
    var decide := AsyncDecide<string, int>(table);
    DecodedPair(0, 1);
    assert Decoded([Some(0), Some(1), Some(2)]) == [0, 1, 2] by {
      var e: seq<Option<uint16>> := [Some(0), Some(1), Some(2)];
      assert e[1..] == [Some(1), Some(2)];
      DecodedPair(1, 2);
    }
    assert decide(odd) == DropOddLength(3);
    DeliveredOfThree(decide, Tagged(0, 1, 1), odd, Tagged(0, 1, 3), "A");
    OddLengthsOfThree(decide, Tagged(0, 1, 1), odd, Tagged(0, 1, 3));
  }

  /** A record without the tag is dropped without a message. */
  lemma DropsMissingTag(table: map<seq<uint16>, string>)
    requires Pair(0, 1) in table && table[Pair(0, 1)] == "A"
    ensures var recs := [Tagged(0, 1, 1), Record(Missing, 2), Tagged(0, 1, 3)];
      && Delivered(AsyncDecide(table), recs, "A") == [Tagged(0, 1, 1), Tagged(0, 1, 3)]
      && OddLengths(AsyncDecide(table), recs) == []
  {
    var decide := AsyncDecide<string, int>(table);
    DecodedPair(0, 1);
    DeliveredOfThree(decide, Tagged(0, 1, 1), Record(Missing, 2), Tagged(0, 1, 3), "A");
    OddLengthsOfThree(decide, Tagged(0, 1, 1), Record(Missing, 2), Tagged(0, 1, 3));
  }

  /** The debug messages of three records, one record at a time. */
  lemma OddLengthsOfThree<P>(decide: Record<int> -> Decision<P>, x: Record<int>, y: Record<int>, z: Record<int>)
    ensures OddLengths(decide, [x, y, z])
            == (if decide(x).DropOddLength? then [decide(x).count] else [])
               + (if decide(y).DropOddLength? then [decide(y).count] else [])
               + (if decide(z).DropOddLength? then [decide(z).count] else [])
  {
    var one := (if decide(z).DropOddLength? then [decide(z).count] else []);
    assert [z][1..] == [];
    assert OddLengths(decide, [z]) == one + OddLengths(decide, []);
    assert [y, z][1..] == [z];
    assert OddLengths(decide, [y, z])
           == (if decide(y).DropOddLength? then [decide(y).count] else []) + OddLengths(decide, [z]);
    assert [x, y, z][1..] == [y, z];
  }

  /** An empty input with a table whose only path is "A": the run succeeds, and the one file
      holds the edited header, the reference sequences and a shutdown; a header without a
      lima program is warned about and nothing else changes. */
  lemma EmptyInput(table: map<seq<uint16>, string>, header: Header<int>,
                   tag: (string, Header<int>) -> Option<Header<int>>)
    requires table.Values == {"A"}
    requires tag("callao", header).Some?
    ensures var none: seq<Record<int>> := [];
      var run := AsyncSplitBam("callao", Some(Input(header, none, Eof)), tag, table,
                               Faults({}, {}, {}, {}, {}), ["A"], ["A"]);
      && run.error == None
      && run.files.Keys == {"A"}
      && run.files["A"] == OpenedLog(tag("callao", header).value) + [ShutDown]
      && (run.limaWarning <==> Lima !in header.programs)
  {
    var none: seq<Record<int>> := [];
    var faults: Faults<string> := Faults({}, {}, {}, {}, {});
    AsyncSuccess("callao", Some(Input(header, none, Eof)), tag, table, faults, ["A"], ["A"]);
    assert Delivered(AsyncDecide<string, int>(table), none, "A") == [];
  }
}

=== FILE: text.dfy ===
/** The pieces of Python's string handling that the command-line front end relies on:
    `str.isspace`, `str.strip`, `str.split()`, `str.split(sep)`, `sep.join` and `int(s)`. */
module Text {
  import opened Wrappers

  /** The code points that Python's `str.isspace` accepts. */
  const Whitespace: set<int> := {
    0x09, 0x0A, 0x0B, 0x0C, 0x0D, 0x1C, 0x1D, 0x1E, 0x1F, 0x20, 0x85, 0xA0, 0x1680,
    0x2000, 0x2001, 0x2002, 0x2003, 0x2004, 0x2005, 0x2006, 0x2007, 0x2008, 0x2009, 0x200A,
    0x2028, 0x2029, 0x202F, 0x205F, 0x3000 }

  /** Python's `str.isspace` for a single character. */
  predicate IsSpace(c: char) {
    c as int in Whitespace
  }

  /** The longest prefix of `s` that holds no whitespace. */
  function LeadingToken(s: string): (t: string)
    ensures t <= s
    ensures forall i :: 0 <= i < |t| ==> !IsSpace(t[i])
    ensures |t| < |s| ==> IsSpace(s[|t|])
    ensures t == [] <==> s == [] || IsSpace(s[0])
  {
    if s == [] || IsSpace(s[0]) then [] else [s[0]] + LeadingToken(s[1..])
  }

  /** `s` with its leading whitespace removed. */
  function DropLeadingSpace(s: string): (r: string)
    ensures |r| <= |s|
    ensures r == s[|s| - |r|..]
    ensures forall i :: 0 <= i < |s| - |r| ==> IsSpace(s[i])
    ensures r == [] || !IsSpace(r[0])
  {
    if s == [] || !IsSpace(s[0]) then s else DropLeadingSpace(s[1..])
  }

  /** `s` with its trailing whitespace removed. */
  function DropTrailingSpace(s: string): (r: string)
    ensures |r| <= |s|
    ensures r == s[..|r|]
    ensures forall i :: |r| <= i < |s| ==> IsSpace(s[i])
    ensures r == [] || !IsSpace(r[|r| - 1])
  {
    if s == [] || !IsSpace(s[|s| - 1]) then s else DropTrailingSpace(s[..|s| - 1])
  }

  /** Every character of `s` is whitespace. */
  ghost predicate AllSpace(s: string) {
    forall i :: 0 <= i < |s| ==> IsSpace(s[i])
  }

  /** Python's `s.strip()`. */
  function Strip(s: string): string {
    DropTrailingSpace(DropLeadingSpace(s))
  }

  /** `r` is one run of `s` that neither starts nor ends with whitespace, and everything of `s`
      around it is whitespace. */
  ghost predicate TrimmedRunOf(s: string, r: string) {
    && (r == [] || (!IsSpace(r[0]) && !IsSpace(r[|r| - 1])))
    && exists lead :: 0 <= lead <= |s| - |r| && s[lead..lead + |r|] == r
                      && AllSpace(s[..lead]) && AllSpace(s[lead + |r|..])
  }

  /** `strip` keeps one run of `s` that neither starts nor ends with whitespace, and what it
      cuts off at either end is whitespace. */
  lemma StripCuts(s: string)
    ensures TrimmedRunOf(s, Strip(s))
  {
    var t := DropLeadingSpace(s);
    var r := DropTrailingSpace(t);
    assert AllSpace(s[..|s| - |t|]);
    assert AllSpace(t[|r|..]);
    CutsAround(s, t, r);
  }

  /** Cutting whitespace off the front of `s` to get `t`, then off the back of `t` to get `r`,
      leaves `r` standing in `s` with only whitespace around it. */
  lemma CutsAround(s: string, t: string, r: string)
    requires |t| <= |s| && t == s[|s| - |t|..] && AllSpace(s[..|s| - |t|]) && (t == [] || !IsSpace(t[0]))
    requires |r| <= |t| && r == t[..|r|] && AllSpace(t[|r|..]) && (r == [] || !IsSpace(r[|r| - 1]))
    ensures TrimmedRunOf(s, r)
  {
    var lead := |s| - |t|;
    assert r == [] || !IsSpace(r[0]) by {
      if r != [] { assert r[0] == t[0]; }
    }
    assert s[lead..lead + |r|] == r;
    assert AllSpace(s[lead + |r|..]) by {
      assert s[lead + |r|..] == t[|r|..];
    }
  }

  /** Python's `s.split()`: the maximal whitespace-free runs of `s`, in order. */
  function Words(s: string): (ws: seq<string>)
    decreases |s|
  {
    var t := DropLeadingSpace(s);
    if t == [] then []
    else
      var w := LeadingToken(t);
      [w] + Words(t[|w|..])
  }

  /** A word of `split()`: non-empty and free of whitespace. */
  ghost predicate IsWord(w: string) {
    w != [] && forall i :: 0 <= i < |w| ==> !IsSpace(w[i])
  }

  /** `split()` yields only words. */
  lemma {:induction false} WordsAreWords(s: string)
    ensures forall k :: 0 <= k < |Words(s)| ==> IsWord(Words(s)[k])
    decreases |s|
  {
    var t := DropLeadingSpace(s);
    if t != [] {
      var w := LeadingToken(t);
      var rest := Words(t[|w|..]);
      WordsAreWords(t[|w|..]);
      assert w != [] by {
        assert !IsSpace(t[0]);
      }
      assert Words(s) == [w] + rest;
      forall k | 0 <= k < |Words(s)|
        ensures IsWord(Words(s)[k])
      {
        if k == 0 {
          assert Words(s)[0] == w;
        } else {
          assert Words(s)[k] == rest[k - 1];
        }
      }
    }
  }

  /** `split()` yields nothing exactly for a string of whitespace only. */
  lemma WordsNoneExactlyBlank(s: string)
    ensures Words(s) == [] <==> AllSpace(s)
  {
    var t := DropLeadingSpace(s);
    if t != [] {
      assert !IsSpace(s[|s| - |t|]);
    }
  }

  lemma {:induction false} LeadingTokenOfPrefix(s: string, e: nat)
    requires |LeadingToken(s)| <= e <= |s|
    ensures LeadingToken(s[..e]) == LeadingToken(s)
    decreases |s|
  {
    if s == [] || IsSpace(s[0]) {
    } else {
      assert s[..e][1..] == s[1..][..e - 1];
      LeadingTokenOfPrefix(s[1..], e - 1);
    }
  }

  lemma {:induction false} LeadingTokenWithin(s: string, e: nat)
    requires e <= |s|
    requires e == |s| || IsSpace(s[e])
    ensures |LeadingToken(s)| <= e
    decreases |s|
  {
    if s == [] || IsSpace(s[0]) {
    } else {
      LeadingTokenWithin(s[1..], e - 1);
    }
  }

  lemma {:induction false} DropTrailingKeepsFirst(s: string)
    requires s != [] && !IsSpace(s[0])
    ensures DropTrailingSpace(s) != []
    ensures DropTrailingSpace(s)[0] == s[0]
    decreases |s|
  {
    if IsSpace(s[|s| - 1]) {
      DropTrailingKeepsFirst(s[..|s| - 1]);
    }
  }

  /** For a line that starts with a non-blank character, `line.strip().split()[0]` is the
      line's first whitespace-free run. */
  lemma FirstWordOfStrippedLine(line: string)
    requires line != [] && !IsSpace(line[0])
    ensures Words(Strip(line)) != []
    ensures Words(Strip(line))[0] == LeadingToken(line)
  {
    assert DropLeadingSpace(line) == line;
    var t := DropTrailingSpace(line);
    DropTrailingKeepsFirst(line);
    assert DropLeadingSpace(t) == t;
    LeadingTokenWithin(line, |t|);
    LeadingTokenOfPrefix(line, |t|);
    assert line[..|t|] == t;
  }

  /** Python's `sep.join(parts)` for a one-character separator. */
  function Join(parts: seq<string>, sep: char): string {
    if |parts| == 0 then ""
    else if |parts| == 1 then parts[0]
    else parts[0] + [sep] + Join(parts[1..], sep)
  }

  /** Python's `s.split(sep)` for a one-character separator: never empty, no piece holds
      the separator, and joining the pieces back gives `s`. */
  function Split(s: string, sep: char): (parts: seq<string>)
    ensures |parts| >= 1
    ensures forall k :: 0 <= k < |parts| ==> sep !in parts[k]
    ensures Join(parts, sep) == s
  {
    if s == [] then [""]
    else
      var rest := Split(s[1..], sep);
      if s[0] == sep then
        assert Join([""] + rest, sep) == [sep] + Join(rest, sep) by {
          assert ([""] + rest)[1..] == rest;
        }
        [""] + rest
      else
        var parts := [[s[0]] + rest[0]] + rest[1..];
        assert Join(parts, sep) == [s[0]] + Join(rest, sep) by {
          if |rest| > 1 {
            assert parts[1..] == rest[1..];
          }
        }
        parts
  }

  lemma {:induction false} SplitOfPiece(a: string, sep: char)
    requires sep !in a
    ensures Split(a, sep) == [a]
    decreases |a|
  {
    if a != [] {
      SplitOfPiece(a[1..], sep);
    }
  }

  lemma {:induction false} SplitOfPrefixedPiece(a: string, sep: char, b: string)
    requires sep !in a
    ensures Split(a + [sep] + b, sep) == [a] + Split(b, sep)
    decreases |a|
  {
    if a == [] {
      assert (a + [sep] + b)[1..] == b;
    } else {
      var s := a + [sep] + b;
      assert s[0] == a[0] && s[0] != sep;
      assert s[1..] == a[1..] + [sep] + b;
      SplitOfPrefixedPiece(a[1..], sep, b);
      assert [a[0]] + a[1..] == a;
    }
  }

  /** Splitting a join recovers the pieces, provided none of them holds the separator. */
  lemma {:induction false} SplitJoin(parts: seq<string>, sep: char)
    requires |parts| >= 1
    requires forall k :: 0 <= k < |parts| ==> sep !in parts[k]
    ensures Split(Join(parts, sep), sep) == parts
    decreases |parts|
  {
    if |parts| == 1 {
      SplitOfPiece(parts[0], sep);
    } else {
      SplitJoin(parts[1..], sep);
      SplitOfPrefixedPiece(parts[0], sep, Join(parts[1..], sep));
    }
  }

  predicate IsDigit(c: char) {
    '0' <= c <= '9'
  }

  predicate AllDigits(s: string) {
    forall i :: 0 <= i < |s| ==> IsDigit(s[i])
  }

  /** The value of a string of decimal digits, most significant first. */
  function DigitsValue(ds: string): nat
    requires AllDigits(ds)
  {
    if ds == [] then 0
    else 10 * DigitsValue(ds[..|ds| - 1]) + (ds[|ds| - 1] as int - '0' as int)
  }

  /** The strings Python's `int()` accepts once whitespace and `_` cannot occur in them:
      an optional sign followed by at least one decimal digit. */
  predicate IsIntLiteral(s: string) {
    if |s| > 0 && (s[0] == '+' || s[0] == '-') then |s| > 1 && AllDigits(s[1..])
    else |s| > 0 && AllDigits(s)
  }

  /** Python's `int(s)` on a string that holds neither whitespace nor `_`; `None` stands
      for the `ValueError` it raises. */
  function ParseInt(s: string): (r: Option<int>)
    ensures r.Some? <==> IsIntLiteral(s)
    ensures r.Some? && s[0] == '-' ==> r.value <= 0
    ensures r.Some? && s[0] != '-' ==> r.value >= 0
  {
    if |s| > 0 && (s[0] == '+' || s[0] == '-') then
      if |s| > 1 && AllDigits(s[1..]) then
        Some(if s[0] == '-' then -(DigitsValue(s[1..]) as int) else DigitsValue(s[1..]))
      else None
    else if |s| > 0 && AllDigits(s) then Some(DigitsValue(s))
    else None
  }

  function DigitChar(d: nat): char
    requires d < 10
  {
    ('0' as int + d) as char
  }

  /** Python's `str(n)` for a natural number. */
  function NatToString(n: nat): (s: string)
    ensures s != [] && AllDigits(s)
  {
    if n < 10 then [DigitChar(n)] else NatToString(n / 10) + [DigitChar(n % 10)]
  }

  /** Python's `str(v)` for an integer. */
  function IntToString(v: int): string {
    if v < 0 then "-" + NatToString(-v) else NatToString(v)
  }

  lemma {:induction false} NatToStringValue(n: nat)
    ensures DigitsValue(NatToString(n)) == n
  {
    if n >= 10 {
      var s := NatToString(n);
      assert s[..|s| - 1] == NatToString(n / 10);
      NatToStringValue(n / 10);
    }
  }

  /** A run of zeros in front of a digit string does not change its value. */
  lemma {:induction false} LeadingZerosValue(zeros: string, ds: string)
    requires forall i :: 0 <= i < |zeros| ==> zeros[i] == '0'
    requires AllDigits(ds)
    ensures AllDigits(zeros + ds)
    ensures DigitsValue(zeros + ds) == DigitsValue(ds)
    decreases |zeros| + |ds|
  {
    if ds == [] {
      assert zeros + ds == zeros;
      if zeros != [] {
        LeadingZerosValue(zeros[..|zeros| - 1], []);
        assert zeros[..|zeros| - 1] + [] == zeros[..|zeros| - 1];
      }
    } else {
      var s := zeros + ds;
      assert s[..|s| - 1] == zeros + ds[..|ds| - 1];
      LeadingZerosValue(zeros, ds[..|ds| - 1]);
    }
  }

  /** `int()` on a non-empty run of digits, after an optional sign. */
  lemma ParseIntSigned(sign: string, ds: string)
    requires sign == "" || sign == "+" || sign == "-"
    requires ds != [] && AllDigits(ds)
    ensures ParseInt(sign + ds) == Some(if sign == "-" then -(DigitsValue(ds) as int) else DigitsValue(ds) as int)
  {
    if sign == "" {
      assert sign + ds == ds;
    } else {
      assert (sign + ds)[0] == sign[0];
      assert (sign + ds)[1..] == ds;
    }
  }

  /** `int()` on a natural number as written with an optional sign and any number of leading
      zeros: `int("01") == 1`, `int("+1") == 1`, `int("-0") == 0`. */
  lemma ParseIntPadded(sign: string, zeros: string, n: nat)
    requires sign == "" || sign == "+" || sign == "-"
    requires forall i :: 0 <= i < |zeros| ==> zeros[i] == '0'
    ensures ParseInt(sign + zeros + NatToString(n)) == Some(if sign == "-" then -(n as int) else n as int)
  {
    var ds := zeros + NatToString(n);
    assert DigitsValue(ds) == n by {
      LeadingZerosValue(zeros, NatToString(n));
      NatToStringValue(n);
    }
    assert sign + zeros + NatToString(n) == sign + ds;
    ParseIntSigned(sign, ds);
  }

  /** Every integer Python prints is read back by `int()` as itself. */
  lemma ParseIntOfPrinted(v: int)
    ensures ParseInt(IntToString(v)) == Some(v)
  {
    if v < 0 {
      NatToStringValue(-v);
      assert IntToString(v)[1..] == NatToString(-v);
    } else {
      NatToStringValue(v);
    }
  }
}

=== FILE: wrappers.dfy ===
/** Failure-carrying values shared by every module of the model. */
module Wrappers {

  datatype Option<+T> = None | Some(value: T)

  /** The outcome of an operation that either produces a value or reports an error. */
  datatype Result<+R, +E> = Success(value: R) | Failure(error: E)
}

=== FILE: writers.dfy ===
/** The pool of BAM writers, one per output path. A writer is modelled by the log of what it
    has written; the file system is modelled by the sets of paths (and record positions) at
    which an operation fails. */
module Writers {
  import opened Wrappers

  datatype Event<H, X> = WroteHeader(header: H) | WroteRefSeqs(header: H) | WroteRecord(record: X) | ShutDown

  type Log<H, X> = seq<Event<H, X>>

  /** Where the file system refuses: paths that cannot be opened, whose header or reference
      sequences cannot be written, or that cannot be shut down, and the positions in the input
      of records whose write fails. */
  datatype Faults<P> = Faults(
    cannotOpen: set<P>,
    headerFails: set<P>,
    refSeqsFail: set<P>,
    writeFailsAt: set<nat>,
    shutdownFails: set<P>)

  /** The errors that end a run, each naming what failed. */
  datatype Error<P> =
    | ReaderFailed
    | HeaderEditFailed
    | ReadFailed(at: nat)
    | OpenFailed(path: P)
    | HeaderWriteFailed(path: P)
    | RefSeqsWriteFailed(path: P)
    | RecordWriteFailed(path: P, at: nat)
    | ShutdownFailed(path: P)

  /** `order` lists the members of `paths`, each once: the iteration order of a hash set. */
  ghost predicate Enumerates<P(!new)>(order: seq<P>, paths: set<P>) {
    && (forall i, j :: 0 <= i < j < |order| ==> order[i] != order[j])
    && (forall p :: p in order <==> p in paths)
  }

  /** The log of a writer that the current `make_writer` has just returned. */
  function OpenedLog<H, X>(h: H): Log<H, X> {
    [WroteHeader(h), WroteRefSeqs(h)]
  }

  predicate Opens<P>(faults: Faults<P>, p: P) {
    p !in faults.cannotOpen && p !in faults.headerFails && p !in faults.refSeqsFail
  }

  /** `make_writer`: open the path, write the header, then the reference sequences; the first
      step that fails is the error. */
  function MakeWriter<P, H, X>(faults: Faults<P>, h: H, p: P): (r: Result<Log<H, X>, Error<P>>)
    ensures r.Success? <==> Opens(faults, p)
    ensures r.Success? ==> r.value == [WroteHeader(h), WroteRefSeqs(h)]
    ensures r.Failure? ==> (r.error.OpenFailed? || r.error.HeaderWriteFailed? || r.error.RefSeqsWriteFailed?) && r.error.path == p
  {
    if p in faults.cannotOpen then Failure(OpenFailed(p))
    else if p in faults.headerFails then Failure(HeaderWriteFailed(p))
    else if p in faults.refSeqsFail then Failure(RefSeqsWriteFailed(p))
    else Success([WroteHeader(h), WroteRefSeqs(h)])
  }

  /** The position in `order` of the first path that cannot be opened, or `|order|`. */
  function FirstUnopenable<P>(faults: Faults<P>, order: seq<P>): (k: nat)
    ensures k <= |order|
    ensures forall j :: 0 <= j < k ==> Opens(faults, order[j])
    ensures k < |order| ==> !Opens(faults, order[k])
  {
    if order == [] || !Opens(faults, order[0]) then 0
    else 1 + FirstUnopenable(faults, order[1..])
  }

  /** The writers opened so far, and the error that stopped the opening, if any. */
  datatype Pool<P, H, X> = Pool(writers: map<P, Log<H, X>>, error: Option<Error<P>>)

  /** The loop of `make_writers`: open the paths in order, stopping at the first failure.
      The writers opened before it are kept as they are: nothing shuts them down. */
  function OpenEach<P, H, X>(faults: Faults<P>, h: H, order: seq<P>, earlier: map<P, Log<H, X>>): (r: Pool<P, H, X>)
    ensures earlier.Keys <= r.writers.Keys
    ensures forall p :: p in r.writers ==> p in earlier || p in order
    ensures r.error.Some? ==>
              && (r.error.value.OpenFailed? || r.error.value.HeaderWriteFailed? || r.error.value.RefSeqsWriteFailed?)
              && r.error.value.path in order && !Opens(faults, r.error.value.path)
  {
    if order == [] then Pool(earlier, None)
    else match MakeWriter(faults, h, order[0])
      case Failure(e) => Pool(earlier, Some(e))
      case Success(log) =>
        assert forall p :: p in order[1..] ==> p in order;
        OpenEach(faults, h, order[1..], earlier[order[0] := log])
  }

  /** The loop keeps the writers it was given, and adds one writer, holding the header and the
      reference sequences, per path before the first that cannot be opened. */
  lemma {:induction false} OpenEachWriters<P(!new), H, X>(faults: Faults<P>, h: H, order: seq<P>, earlier: map<P, Log<H, X>>)
    ensures var pool := OpenEach(faults, h, order, earlier);
      var k := FirstUnopenable(faults, order);
      && (forall p :: p in pool.writers <==> p in earlier || p in order[..k])
      && (forall p :: p in order[..k] ==> pool.writers[p] == OpenedLog(h))
      && (forall p :: p in earlier && p !in order[..k] ==> pool.writers[p] == earlier[p])
  {
    if order != [] && Opens(faults, order[0]) {
      var later := earlier[order[0] := OpenedLog(h)];
      OpenEachWriters(faults, h, order[1..], later);
      var k := FirstUnopenable(faults, order);
      assert OpenEach(faults, h, order, earlier) == OpenEach(faults, h, order[1..], later);
      assert forall p :: p in order[..k] <==> p == order[0] || p in order[1..][..k - 1];
    }
  }

  /** The loop reports the error of the first path that cannot be opened, and no error when
      every path opens. */
  lemma {:induction false} OpenEachError<P, H, X>(faults: Faults<P>, h: H, order: seq<P>, earlier: map<P, Log<H, X>>)
    ensures var pool := OpenEach(faults, h, order, earlier);
      var k := FirstUnopenable(faults, order);
      && (pool.error.None? <==> k == |order|)
      && (k < |order| ==> pool.error == Some(MakeWriter<P, H, X>(faults, h, order[k]).error))
  {
    if order != [] && Opens(faults, order[0]) {
      OpenEachError(faults, h, order[1..], earlier[order[0] := OpenedLog(h)]);
    }
  }

  /** The whole of the loop: what `OpenEachWriters` and `OpenEachError` say together. */
  lemma OpenEachPool<P(!new), H, X>(faults: Faults<P>, h: H, order: seq<P>, earlier: map<P, Log<H, X>>)
    ensures var pool := OpenEach(faults, h, order, earlier);
      var k := FirstUnopenable(faults, order);
      && (forall p :: p in pool.writers <==> p in earlier || p in order[..k])
      && (forall p :: p in order[..k] ==> pool.writers[p] == OpenedLog(h))
      && (forall p :: p in earlier && p !in order[..k] ==> pool.writers[p] == earlier[p])
      && (pool.error.None? <==> k == |order|)
      && (k < |order| ==> pool.error == Some(MakeWriter<P, H, X>(faults, h, order[k]).error))
  {
    OpenEachWriters(faults, h, order, earlier);
    OpenEachError(faults, h, order, earlier);
  }

  /** `make_writers` of the current splitter: one writer per path of the set, each having
      written the header and the reference sequences; the first path that fails makes the
      whole call fail with that path's error, and no map is returned. */
  function MakeWriters<P(!new), H, X>(faults: Faults<P>, h: H, paths: set<P>, order: seq<P>): (r: Result<map<P, Log<H, X>>, Error<P>>)
    requires Enumerates(order, paths)
    ensures r.Success? <==> forall p :: p in paths ==> Opens(faults, p)
    ensures r.Success? ==> r.value.Keys == paths && forall p :: p in paths ==> r.value[p] == OpenedLog(h)
    ensures r.Failure? ==>
              exists k :: (0 <= k < |order|
                && (forall j :: 0 <= j < k ==> Opens(faults, order[j]))
                && !Opens(faults, order[k])
                && r.error == MakeWriter<P, H, X>(faults, h, order[k]).error)
  {
    var pool := OpenEach(faults, h, order, map[]);
    var k := FirstUnopenable(faults, order);
    OpenEachPool<P, H, X>(faults, h, order, map[]);
    if pool.error.Some? then
      assert !Opens(faults, order[k]);
      Failure(pool.error.value)
    else
      assert order[..k] == order;
      Success(pool.writers)
  }

  predicate LegacyOpens<P>(faults: Faults<P>, p: P) {
    p !in faults.cannotOpen && p !in faults.headerFails
  }

  /** The legacy `make_writer`: open the path and write the header. */
  function LegacyMakeWriter<P, H, X>(faults: Faults<P>, h: H, p: P): (r: Result<Log<H, X>, Error<P>>)
    ensures r.Success? <==> LegacyOpens(faults, p)
    ensures r.Success? ==> r.value == [WroteHeader(h)]
  {
    if p in faults.cannotOpen then Failure(OpenFailed(p))
    else if p in faults.headerFails then Failure(HeaderWriteFailed(p))
    else Success([WroteHeader(h)])
  }

  /** The loop of the legacy `make_writers`: a path whose writer fails is skipped. */
  function LegacyOpenEach<P(!new), H, X>(faults: Faults<P>, h: H, order: seq<P>, earlier: map<P, Log<H, X>>): (m: map<P, Log<H, X>>)
    ensures m.Keys == earlier.Keys + (set p | p in order && LegacyOpens(faults, p))
    ensures forall p :: p in m ==>
              m[p] == if p in order && LegacyOpens(faults, p) then [WroteHeader(h)] else earlier[p]
  {
    if order == [] then earlier
    else
      var next := match LegacyMakeWriter(faults, h, order[0])
        case Success(log) => earlier[order[0] := log]
        case Failure(_) => earlier;
      var m := LegacyOpenEach(faults, h, order[1..], next);
      assert forall p :: p in order <==> p == order[0] || p in order[1..];
      m
  }

  /** The legacy `make_writers`: it always succeeds, and holds a writer, with the header
      written, for exactly the paths whose writer could be made. */
  function LegacyMakeWriters<P(!new), H, X>(faults: Faults<P>, h: H, paths: set<P>, order: seq<P>): (r: Result<map<P, Log<H, X>>, Error<P>>)
    requires Enumerates(order, paths)
    ensures r.Success?
    ensures forall p :: p in r.value <==> p in paths && LegacyOpens(faults, p)
    ensures forall p :: p in r.value ==> r.value[p] == [WroteHeader(h)]
  {
    Success(LegacyOpenEach(faults, h, order, map[]))
  }

  /** The position in `order` of the first writer whose shutdown fails, or `|order|`. */
  function FirstFailedShutdown<P>(faults: Faults<P>, order: seq<P>): (k: nat)
    ensures k <= |order|
    ensures forall j :: 0 <= j < k ==> order[j] !in faults.shutdownFails
    ensures k < |order| ==> order[k] in faults.shutdownFails
  {
    if order == [] || order[0] in faults.shutdownFails then 0
    else 1 + FirstFailedShutdown(faults, order[1..])
  }

  /** The final loop of the splitter: shut every writer down in order, stopping at the first
      shutdown that fails. */
  function ShutdownEach<P(!new), H, X>(faults: Faults<P>, order: seq<P>, writers: map<P, Log<H, X>>): (r: Pool<P, H, X>)
    requires forall i, j :: 0 <= i < j < |order| ==> order[i] != order[j]
    requires forall p :: p in order ==> p in writers
    ensures var k := FirstFailedShutdown(faults, order);
      && r.writers.Keys == writers.Keys
      && (forall p :: p in writers ==>
            r.writers[p] == if p in order[..k] then writers[p] + [ShutDown] else writers[p])
      && (r.error.None? <==> k == |order|)
      && (k < |order| ==> r.error == Some(ShutdownFailed(order[k])))
  {
    if order == [] then Pool(writers, None)
    else if order[0] in faults.shutdownFails then Pool(writers, Some(ShutdownFailed(order[0])))
    else
      var r := ShutdownEach(faults, order[1..], writers[order[0] := writers[order[0]] + [ShutDown]]);
      var k := FirstFailedShutdown(faults, order);
      assert forall p :: p in order[..k] <==> p == order[0] || p in order[1..][..k - 1];
      assert order[0] !in order[1..];
      r
  }
}
